=== FILE: README.md ===
# Save Tabs: storage, sync and workspace logic

Save Tabs is a browser extension that saves the tabs of a window as a named
*workspace*. A workspace can have a category, and workspaces can be restored,
updated, deleted, searched, exported and imported. Everything it keeps lives in
two key/value areas. The first is `chrome.storage.local` (called Local here),
which always holds the data. The second is `chrome.storage.sync` (called Sync
here), which also receives the workspaces and categories when the user turns
sync on.

This project models three parts of the extension:

- `StorageManager` (storage-manager.js), through which the extension's pages
  read and write most of their data. Each page (the popup, the save dialog and
  the background service worker) loads its own instance; only the two storage
  areas are shared. It is modelled as the class `Storage.StorageManager`, with
  the fields `local`, `sync` and `syncEnabled`.
- The popup's logic (popup.js), without the DOM:
  - filtering, searching and grouping the workspace list;
  - adding a category;
  - saving, updating and deleting a workspace;
  - validating, sanitizing and merging an import.
- The background script (background.js): `saveWorkspace`, the message
  listener's `saveTabs`, `getCategories` and `getSyncStatus` branches, and
  the storage-change listener that pulls Sync into Local.

Each asynchronous operation is modelled as one atomic step. Each of its
backend calls can fail, as chosen by a *fault record*, which is a parameter
of booleans, one per call. Each step is given twice:

- as a transition function `(state, inputs, faults) -> (state', result)`,
  in module `SyncPolicy` for the storage manager and next to the popup and
  background code for the rest;
- as an imperative method on the `StorageManager` object. Each method's
  postcondition says its final state and result are the ones the function
  gives.

The properties are lemmas about the transition functions:

- `SyncProperties` covers the storage manager: merge-not-replace,
  auto-disable, pull as an overwrite, reads with fallback, and the cached
  flag kept equal to the persisted one.
- `WorkspaceList`, `PopupActions`, `Import` and `Background` cover the
  popup and the background script.

Some behaviours of the code are easy to miss, and the model states each of
them:

- **Turning sync on can leave it off.** `setSyncStatus(true)` ignores the
  reply of the push it triggers. A failed push leaves sync off, in memory and
  in Local, while the call itself resolves.
- **The cached flag can disagree with the stored one.** This happens in two
  cases:
  - when persisting the flag fails after it was cached;
  - when the initial flag read fails.
- **A push followed by a pull does not restore Local.** The round trip gives
  back what Local held. It also copies into Local a collection that only Sync
  held.
- **A delete can lose workspaces that only Local held.** `deleteWorkspace`
  reads the workspace map through `getWorkspaces`. With sync on that is
  Sync's map, which is then written wholesale to both areas.

## Model

| member | source | states |
|---|---|---|
| Values.NewRecord | popup.js:399-404 | a new or overwritten workspace record has the given tabs, creation time and category, a tab count equal to the number of tabs, and no update time |
| Values.Restrict | storage-manager.js:312-322 | `get(keys)` returns exactly the stored entries of the asked keys; missing keys are absent |
| Values.Fragment | storage-manager.js:212-215 | a payload contributes exactly the collection keys it holds, with values of the right kind |
| Values.PayloadRoundTrip | storage-manager.js:127-179 | reading back the entries written for a payload yields the same payload |
| Values.PayloadWritten | storage-manager.js:168-172 | after writing a payload into an area, the collections it carries read back as written and the others are as before |
| Sequences.Keep | popup.js:728-731 | the filtered list holds exactly the elements that pass the test and is no longer than the input |
| Sequences.KeepAppend | popup.js:728-731 | filtering keeps the input's order: a concatenation filters to the concatenation of the filtered parts, and one element is kept exactly when it passes (KeepSingleton) |
| Sequences.DedupMembers | storage-manager.js:209 | `[...new Set(xs)]` holds exactly the elements of `xs` |
| Sequences.DedupNoDuplicates | storage-manager.js:209 | `[...new Set(xs)]` holds each element once |
| Sequences.DedupOfUnique | storage-manager.js:209 | a list without duplicates is unchanged by `[...new Set(...)]` |
| Sequences.DedupAppend | storage-manager.js:201-209 | de-duplicating `a + b` keeps de-duplicated `a` as a prefix, followed by the new elements of `b` in order |
| Sequences.Trim | popup.js:323 | `trim()` gives the slice of the input that starts and ends with a non-whitespace character, everything of the input before and after it being whitespace |
| Sequences.TrimEmpty | popup.js:323 | a string of whitespace trims to the empty string |
| Sequences.LowerTrim | popup.js:716 | trimming and lower-casing commute |
| Sequences.LowerIdempotent | popup.js:716 | lower-casing twice is lower-casing once |
| Storage.StorageManager.constructor | storage-manager.js:6-9 | a new manager starts with sync off over the given areas |
| Storage.StorageManager.GetLocal | storage-manager.js:312-322 | resolves with the asked entries of Local, or rejects when the backend fails |
| Storage.StorageManager.SetLocal | storage-manager.js:329-339 | Local gains the given entries, or stays as it was and the call rejects |
| Storage.StorageManager.RemoveLocal | storage-manager.js:346-356 | Local loses the given keys, or stays as it was and the call rejects |
| Storage.StorageManager.GetSync | storage-manager.js:363-373 | resolves with the asked entries of Sync, or rejects |
| Storage.StorageManager.SetSync | storage-manager.js:380-390 | Sync gains the given entries, or stays as it was and the call rejects |
| Storage.StorageManager.RemoveSync | storage-manager.js:397-407 | Sync loses the given keys, or stays as it was and the call rejects |
| Storage.StorageManager.InitSyncStatus | storage-manager.js:14-22 | the cached flag becomes the persisted flag (false if absent), or false when the read fails |
| Storage.StorageManager.SetSyncStatus | storage-manager.js:28-36 | caches the flag, persists it, then pushes when enabling; the new state and result are SyncPolicy.SetSyncStatus's |
| Storage.StorageManager.GetSyncStatus | storage-manager.js:42-44 | answers the cached flag without reading storage |
| Storage.StorageManager.SetUIMode | storage-manager.js:50-61 | writes Local, then Sync when on, swallowing a Sync failure |
| Storage.StorageManager.SetTheme | storage-manager.js:89-100 | writes Local, then Sync when on, swallowing a Sync failure |
| Storage.StorageManager.SetPreferenceEntry | storage-manager.js:50-61 | the shared body of both preference writers |
| Storage.StorageManager.GetUIMode | storage-manager.js:67-83 | Sync's non-empty mode when on, else Local's, else "basic" |
| Storage.StorageManager.GetTheme | storage-manager.js:106-122 | Sync's non-empty theme when on, else Local's, else "light" |
| Storage.StorageManager.DisableSyncFlag | storage-manager.js:147-152 | sync off in memory first, then `syncEnabled: false` written to Local |
| Storage.StorageManager.PushLocalToSync | storage-manager.js:127-154 | copies Local's collections to Sync within the size limit, or switches sync off |
| Storage.StorageManager.PullSyncToLocal | storage-manager.js:159-179 | overwrites Local's collections with Sync's, or reports that Sync is empty or failed |
| Storage.StorageManager.SaveData | storage-manager.js:185-243 | Local first, then the merge into Sync with the size check and auto-disable; the state and reply are SyncPolicy.SaveData's |
| Storage.StorageManager.DeleteData | storage-manager.js:249-261 | removes from Local, then from Sync when on, swallowing a Sync failure |
| Storage.StorageManager.GetWorkspaces | storage-manager.js:266-282 | Sync's workspace map when on and present, else Local's, else empty |
| Storage.StorageManager.GetCategories | storage-manager.js:287-303 | Sync's category list when on and present (even empty), else Local's, else empty |
| SyncProperties.SaveDataWritesLocalFirst | storage-manager.js:185-188 | a failed Local write changes nothing and rejects; otherwise Local holds the caller's data whatever Sync does |
| SyncProperties.SaveDataWithSyncOff | storage-manager.js:190-242 | with sync off only Local is written and the call succeeds |
| SyncProperties.SaveDataSucceedsIff | storage-manager.js:190-228 | with sync on, success exactly when the Sync read, the size check and the Sync write go through; Sync then receives the merge |
| SyncProperties.SaveDataAutoDisables | storage-manager.js:217-239 | any Sync failure or an oversized payload turns sync off and persists that; the reply carries `syncDisabled` and the error; Sync is unchanged |
| SyncProperties.SaveDataSyncDisabledOnlyOnFailure | storage-manager.js:229-239 | `syncDisabled` is reported only when sync was on and its Sync half failed |
| SyncProperties.ToSyncWorkspaces | storage-manager.js:196-200 | the Sync workspaces are Sync's map overridden name by name by the given map |
| SyncProperties.ToSyncCategories | storage-manager.js:201-210 | the Sync categories are Sync's list followed by the new given names, each once |
| SyncProperties.ToSyncOnlyGivenKeys | storage-manager.js:212-215 | only the collections present in the argument are written to Sync |
| SyncProperties.CategoriesMergeExample | storage-manager.js:196-226 | Sync ["A","B"] plus saved ["B","C"] gives Sync ["A","B","C"] and Local ["B","C"] |
| SyncProperties.PushCopiesLocal | storage-manager.js:127-145 | a push succeeds exactly when the read, the size check and the write go through, and then copies Local's collections verbatim |
| SyncProperties.PushFailureDisables | storage-manager.js:146-153 | a failed push turns sync off in memory and in Local, reports failure without `syncDisabled`, and leaves Sync alone |
| SyncProperties.SetSyncStatusPushes | storage-manager.js:28-36 | the flag is cached and persisted; enabling pushes and disabling does not |
| SyncProperties.SetSyncStatusFailedPushTurnsSyncOff | storage-manager.js:28-36 | enabling with a failing push resolves but leaves sync off |
| SyncProperties.SetSyncStatusFlagWriteFails | storage-manager.js:29-30 | when persisting fails the call rejects with the new flag cached and the old one stored |
| SyncProperties.PullKeepsFlagAndSync | storage-manager.js:159-179 | pull never changes Sync or the flag; a failed or empty pull changes nothing |
| SyncProperties.PullNothing | storage-manager.js:163-166 | with neither collection in Sync, Local is untouched and the reply says so |
| SyncProperties.PullOverwrites | storage-manager.js:168-173 | each collection Sync holds replaces Local's wholesale; the others stay |
| SyncProperties.PullIsDestructive | storage-manager.js:168-173 | Local's workspaces after a pull are exactly Sync's |
| SyncProperties.PushThenPull | storage-manager.js:127-179 | push then pull gives back every collection Local held and copies in the ones only Sync held |
| SyncProperties.PushThenPullCanChangeLocal | storage-manager.js:127-179 | a concrete state whose Local gains categories from the round trip |
| SyncProperties.ReadPrefersSync | storage-manager.js:266-282 | with sync on and a truthy Sync value, that value is returned |
| SyncProperties.ReadFallsBack | storage-manager.js:266-282 | otherwise Local's truthy value or the default; only a failed Local read rejects |
| SyncProperties.ReadIgnoresSyncWhenOff | storage-manager.js:266-282 | with sync off neither Sync's content nor its failures matter |
| SyncProperties.EmptySyncCategoriesReturned | storage-manager.js:290-294 | an empty category list in Sync is returned as it is |
| SyncProperties.EmptySyncPreferenceFallsThrough | storage-manager.js:67-83 | an empty mode or theme in Sync falls through to Local |
| SyncProperties.ReadDefaults | storage-manager.js:266-303 | the defaults are `{}`, `[]`, "basic" and "light" |
| SyncProperties.SetPreferenceSwallowsSyncFailure | storage-manager.js:50-61 | preference writers write Local always, Sync only when on, and resolve despite a Sync failure |
| SyncProperties.DeleteDataSwallowsSyncFailure | storage-manager.js:249-261 | deleteData removes from Local always, from Sync only when on, and resolves despite a Sync failure |
| SyncProperties.InitLoadsFlag | storage-manager.js:14-22 | the cached flag is the persisted one (false if absent), or false on a failed read |
| SyncProperties.InitFailureDiverges | storage-manager.js:18-21 | a failed initial read caches false although Local stores true |
| SyncProperties.SetSyncStatusEstablishesFlag | storage-manager.js:28-36 | when setSyncStatus resolves, the cached flag equals the persisted one |
| SyncProperties.SaveDataKeepsFlag | storage-manager.js:185-243 | saveData keeps the cached and persisted flags equal |
| SyncProperties.PushKeepsFlag | storage-manager.js:127-154 | push keeps the cached and persisted flags equal |
| SyncProperties.PullKeepsFlag | storage-manager.js:159-179 | pull keeps the cached and persisted flags equal |
| SyncProperties.SetPreferenceKeepsFlag | storage-manager.js:50-61 | preference writes keep the cached and persisted flags equal |
| SyncProperties.DeleteDataKeepsFlag | storage-manager.js:249-261 | deleteData keeps the flags equal unless asked to remove the flag |
| WorkspaceList.InCategory | popup.js:728-731 | an entry is kept exactly when its category is the one asked for |
| WorkspaceList.FilterByCategory | popup.js:727-732 | 'all' keeps everything; any other choice keeps exactly the entries of that category, "" meaning none |
| WorkspaceList.Search | popup.js:735-759 | an entry is kept exactly when the query is empty or occurs in its name, category, or a tab's title or URL |
| WorkspaceList.BlankSearchKeepsAll | popup.js:716-735 | a query of blanks keeps every entry |
| WorkspaceList.SearchIgnoresQueryCase | popup.js:716 | the query's case does not change the result |
| WorkspaceList.Categories | popup.js:780-781 | the category of each entry, in order |
| WorkspaceList.GroupByCategory | popup.js:772-786 | the grouping object has "" first, then each category as it first appears, and each group holds exactly that category's entries in list order |
| WorkspaceList.GroupStep | popup.js:780-786 | one loop iteration keeps the grouping exact |
| WorkspaceList.GroupKeys | popup.js:777-786 | the keys start with "", have no duplicates and are "" plus the listed categories |
| WorkspaceList.EachEntryInOneGroup | popup.js:780-786 | every entry lands in its category's group and in no other |
| WorkspaceList.OnlyNoCategoryGroupEmpty | popup.js:777-790 | only the "" group can be empty |
| WorkspaceList.Rendered | popup.js:789-790 | exactly the non-empty groups are rendered |
| WorkspaceList.RenderedSingleton | popup.js:789-790 | one key renders its group exactly when the group is non-empty |
| WorkspaceList.RenderedAppend | popup.js:789-790 | the groups are rendered in key order: a concatenation of key lists renders as the concatenation of their renderings |
| WorkspaceList.RenderedAllShown | popup.js:789-790 | when no group is empty, each key is rendered once with its group, in the order of the keys |
| WorkspaceList.GroupsShownListsAll | popup.js:727-772 | when the groups are shown (no query, filter 'all'), neither filter has dropped an entry |
| PopupActions.DecideCategory | popup.js:323-342 | a blank name is ignored, an existing one refused (case-sensitively), any other appended |
| PopupActions.DecideCategoryKeepsUnique | popup.js:323-342 | appending keeps the list free of duplicates; only an all-blank input is ignored |
| PopupActions.DecideCategoryIsCaseSensitive | popup.js:333 | "work" is added beside "Work" |
| PopupActions.AddNewCategory | popup.js:315-369 | reads the categories, decides, and saves the appended list through saveData |
| PopupActions.AddCategoryEffects | popup.js:325-345 | a blank or duplicate name writes nothing; a new one is saved appended at the end |
| PopupActions.AddCategoryAppendsLocally | popup.js:339-345 | with sync off the new category ends up last in Local's list |
| PopupActions.WithNewRecord | popup.js:431-437 | the saved map is the fetched one with the new record under the name and every other entry unchanged |
| PopupActions.SaveCurrentTabs | popup.js:371-459 | a blank name is refused; an existing name is overwritten only on confirmation; the record goes through saveData, whose rejection is caught for a new name and left unhandled in the overwrite dialog's handler |
| PopupActions.SaveTabsRejection | popup.js:392-456 | a failed saveData writes nothing; it is reported for a new name and left unhandled for a confirmed overwrite, both directions |
| PopupActions.SaveTabsRecord | popup.js:431-440 | with sync off Local gets the fetched map plus the new record |
| PopupActions.SaveTabsDeclined | popup.js:392-428 | declining the overwrite writes nothing |
| PopupActions.UpdatedRecord | popup.js:249-257 | the updated record keeps creation time and category and takes the new tabs, count and update time |
| PopupActions.UpdateWorkspace | popup.js:228-279 | an unknown name is refused; otherwise the updated record goes through saveData, with rejections not caught |
| PopupActions.UpdateChangesOnlyName | popup.js:242-259 | with sync off only the named workspace changes |
| PopupActions.UpdateUnknownRefused | popup.js:244-247 | updating an unknown workspace writes nothing |
| PopupActions.CopyWithout | popup.js:931-937 | the copy loop yields exactly the map without the name |
| PopupActions.WithoutKeepsOthers | popup.js:931-937 | every other workspace keeps its value |
| PopupActions.DeleteWorkspace | popup.js:917-962 | the map without the name replaces Local's, then Sync's when on, with no merge and no size check |
| PopupActions.DeleteReplacesMaps | popup.js:939-945 | after a delete, Local (and Sync when on) hold exactly the fetched map without the name |
| PopupActions.DeleteNothingWritten | popup.js:924-929 | an unknown name or a failed read writes nothing |
| PopupActions.DeleteDropsLocalOnlyWorkspaces | popup.js:924-940 | with sync on, a workspace only Local held is gone from Local after a delete |
| Import.RebuildTab | popup.js:555-573 | an imported tab keeps an http(s) URL and otherwise gets about:blank, keeps an icon URL starting with "http" and otherwise gets "", and takes the sanitized title |
| Import.RebuildWorkspace | popup.js:575-580 | the rebuilt record takes its tab count from its tabs and keeps the creation time |
| Import.RebuildAll | popup.js:543-581 | the import is rebuilt exactly when every entry is well-formed; the first malformed entry is named; every rebuilt record is safe |
| Import.RebuildAllLastWins | popup.js:543-581 | each stored record is the rebuild of the last entry whose name sanitizes to its name |
| Import.RebuildAllStops | popup.js:545-549 | entries after a malformed one do not matter |
| Import.RebuildAllStopsAt | popup.js:543-549 | the import fails naming the first malformed entry, whatever follows it |
| Import.SanitizeWorkspaces | popup.js:541-581 | the loop computes RebuildAll |
| Import.SanitizeCategories | popup.js:584 | each imported category is sanitized |
| Import.Duplicates | popup.js:589 | the duplicate names are those in both maps |
| Import.RemoveNames | popup.js:629-631 | "Skip Duplicates" removes exactly the duplicate names |
| Import.OverwriteMerge | popup.js:599 | overwrite keeps every name and lets imported records replace stored ones |
| Import.SkipMerge | popup.js:629-634 | skip keeps every stored record and adds only new names |
| Import.NoDuplicatesSameMerge | popup.js:592-667 | without duplicates both answers give the same map |
| Import.MergedCategories | popup.js:602 | the stored list followed by the new imported names, each once |
| Import.ImportWorkspaces | popup.js:522-693 | validation, the duplicate question, the merge and saveData; failed reads and the save without duplicates are caught, the save in the duplicate dialog's handler is not |
| Import.SaveMerged | popup.js:587-673 | the part after the reads: ask, merge and save, a rejection left unhandled when the dialog's handler saved |
| Import.MergeRejection | popup.js:592-690 | a failed saveData writes nothing; it is left unhandled exactly when some name was a duplicate and caught exactly when none was |
| Import.ImportSavesMerge | popup.js:587-673 | with sync off and no failure, the import's whole effect is writing the merged workspaces and categories into Local, answered with success |
| Import.MalformedImportWritesNothing | popup.js:545-549 | a malformed entry anywhere means nothing is written |
| Import.ImportIntoLocal | popup.js:599-673 | with sync off Local ends with the merged map and categories, every imported record safe |
| Background.Answer | background.js:116-127 | `{success: true}` exactly when saveData reported success |
| Background.SaveWorkspace | background.js:100-128 | the fetched map with the new record goes through saveData; every failure is answered |
| Background.HandleMessage | background.js:48-97 | saveTabs saves and then removes `tempTabsData`; getCategories answers the list, or [] on failure; getSyncStatus answers the cached flag |
| Background.OnStorageChanged | background.js:131-144 | a Sync change pulls exactly when sync is on |
| Background.StaleFlagSavesLocalOnly | background.js:114 | after another page's setSyncStatus(true) stores the flag on, the background's own instance, whose cached flag is still off, saves to Local only |
| Background.SaveWorkspaceAnswer | background.js:114-126 | success exactly when saveData succeeded; an auto-disable is answered as a plain failure while sync is now off |
| Background.SaveWorkspaceRecord | background.js:103-114 | with sync off Local gets the fetched map plus the new record |
| Background.MissingCategoryIsEmpty | background.js:51 | a request without a category saves category "" |
| Background.SaveTabsCleansUp | background.js:55-61 | `tempTabsData` is removed after saveTabs |
| Background.ReadOnlyMessages | background.js:74-96 | getCategories and getSyncStatus change nothing and answer as stated |
| KeyOrder.SortByValue | popup.js:789 | array-index keys ordered by numeric value, a permutation of the input (each key as often as given) |
| KeyOrder.OwnKeyOrder | popup.js:789 | `Object.entries` lists the same keys, each as often as given (a permutation), no index key after another key, the index keys ascending by value and the other keys in creation order |
| KeyOrder.RenderedAsWritten | popup.js:789-790 | as written, the groups are rendered in `Object.entries` order of the grouping object's keys, empty ones skipped: the same groups as in creation order, each with its entries |
| KeyOrder.OwnKeyOrderExample | popup.js:789 | the keys "" then "7" are listed as "7" then "" |
| KeyOrder.GroupsExample | popup.js:774-786 | the grouping object for a "7" workspace and one without a category |
| KeyOrder.IndexCategoryRenderedFirst | popup.js:774-790 | as written, the "7" group is rendered before the non-empty no-category group |
| KeyOrder.RenderedHead | popup.js:789-790 | the first key's group leads the rendering when non-empty |
| KeyOrder.NoCategoryRenderedFirst | popup.js:776-790 | rendered in creation order, the non-empty no-category group comes first and is followed by every category's group once, in the order the categories first appear |

## Left out

- Asynchrony and interleaving are not modelled, because each operation is one atomic step. This leaves out three things:
  - the constructor's un-awaited `initSyncStatus`, during which `getSyncStatus` answers false;
  - overlapping saves;
  - a pull racing a save.
- The chrome storage wrappers are modelled as map operations that fail as a boolean says. Quotas and the backend's own error messages are not modelled.
- Error messages are reduced to `BackendError` or `QuotaExceeded(bytes)`.
- calculateDataSize is the uninterpreted function `size`, because JSON serialization and UTF-8 length are outside the model. Only the comparison with 102400 is modelled.
- Import.Sanitize: HTML escaping is the parameter `escape`, so the model does not state what the escaped text looks like.
- Import.RebuildTab: the `new URL` protocol test is the parameter `isHttpUrl`.
- toLowerCase is modelled for ASCII letters only, because Unicode case mapping is outside the model.
- Sorting by creation date (`new Date`) is not modelled. The list steps take the entries in display order.
- Date formatting and the clock are left out. The current time is the parameter `now`.
- The DOM, dialogs, rendering of items, highlighting and preview are not modelled. A dialog answer is a parameter, such as `confirm` or `choice`.
- The following popup code is UI glue over modelled storage calls and is left out:
  - toggleSync and initSyncToggle;
  - toggleUIMode and toggleTheme;
  - initUIMode and initTheme;
  - loadCategories.
- Export (exportWorkspaces and exportSingleWorkspace) is left out, because it only serializes and downloads.
- openWorkspace is left out, because it creates tabs and windows.
- The file checks, JSON parsing and old-format detection of importWorkspaces are left out. The model starts from the parsed entries and categories.
- The message listener's getTempTabsData branch is left out. So are the keyboard command and the context menu that open the save dialog.
- save-dialog.js is not part of this model.
- Stored values are assumed to have the shapes the extension writes (`WellTyped`). Data written by other code is not modelled.
- A missing category and the empty category are both "". A non-string `createdAt` is not modelled.
- WorkspaceList.GroupByCategory: a category named like an `Object.prototype` member (such as "constructor") makes the source's `groupedWorkspaces[category].push` throw. The model groups it like any other name.
- PopupActions.SaveCurrentTabs: the source tests `workspaces[workspaceName]`, which is also truthy for a name inherited from `Object.prototype` (such as "toString"), and assigning `workspaces["__proto__"]` stores nothing. The model tests `name in ws` and stores every name, so for those names it saves where the source asks for confirmation, or stores a record the source drops.
- PopupActions.UpdateWorkspace: the same inherited names pass the source's `workspaces[name]` test (popup.js:244); the model refuses them as unknown.
- PopupActions.DeleteWorkspace: the same inherited names pass the source's `workspaces[name]` test (popup.js:926); the model refuses them as unknown.
- Import.ImportWorkspaces: the source counts an imported name as a duplicate when `existingWorkspaces[name]` is truthy, which holds for inherited names such as "toString"; `Import.Duplicates` counts only stored names, so for those names the model may skip the duplicate question.
- Background.SaveWorkspace: assigning `workspaces["__proto__"]` in the source stores nothing; the model stores the record under that name.
- Import.RebuildAll: JavaScript objects cannot hold two entries under one name, but the model's entry list can. A later entry wins, as it would for names that sanitize alike.
- Import.RebuildAll: an imported entry whose sanitized name is "__proto__" is lost in the source, because assigning to `sanitizedWorkspaces["__proto__"]` (popup.js:575) replaces the object's prototype instead of adding a key, so the merge (popup.js:589, 599, 634) never sees it; the model stores it under that name like any other.

- Background.HandleMessage, Background.OnStorageChanged: each page's StorageManager caches its own `syncEnabled`, so the background's flag can be out of date after the popup or the save dialog calls setSyncStatus (popup.js:192, save-dialog.js:124); then the background saves to Local only or skips the pull (background.js:114, 132). The model holds one instance per call and states this only for saveData, in `Background.StaleFlagSavesLocalOnly`; it does not model several instances side by side.
- Background.HandleMessage: the saveTabs branch removes `tempTabsData` with `chrome.storage.local` directly (background.js:60), and the keyboard command and getTempTabsData branch use it too (background.js:37, 87), all outside the StorageManager; the model removes that key from the same Local store.

## Findings

| source | as written | input that shows it | evidently intended | confidence | as-written member | corrected member |
|---|---|---|---|---|---|---|
| popup.js:774-790 | the groups are rendered in `Object.entries` order, which lists array-index keys first, so a category such as "7" or "2024" is shown before the "No Category" group that was created first | two workspaces, one in category "7" and one without a category | the "No Category" group first, then the categories in the order they first appear | not executed | KeyOrder.IndexCategoryRenderedFirst | KeyOrder.NoCategoryRenderedFirst |

=== FILE: background.dfy ===
/**
 * The extension's background script: saveWorkspace, the message listener's
 * saveTabs, getCategories and getSyncStatus branches, and the storage-change
 * listener that pulls Sync into Local. Messages are handled one at a time,
 * each as one step over the background's own StorageManager instance; the
 * popup and the save dialog load instances of their own, and only the two
 * storage areas are shared between them.
 */
module Background {
  import opened Values
  import opened SyncPolicy
  import opened Storage
  import opened PopupActions
  import SyncProperties

  /** The key under which the save dialog's tabs wait in Local. */
  const TempTabsDataKey: string := "tempTabsData"

  /** A message to the background script; `category` is None when the request has none. */
  datatype Request =
    | SaveTabs(workspaceName: string, category: Option<string>, tabsData: seq<Tab>)
    | GetCategories
    | GetSyncStatus
    | OtherAction

  /** What the listener sends back. */
  datatype Response =
    | Success                          // { success: true }
    | Failure(error: Error)            // { success: false, error }
    | Categories(categories: seq<string>)
    | SyncStatus(syncEnabled: bool)
    | NoResponse

  /** saveWorkspace's answer to a settled saveData call: success iff saveData reported success. */
  function Answer(r: Settled<Reply>): (a: Response)
    ensures a == Success <==> r.Resolved? && r.value.Success()
    ensures a != Success ==> a.Failure?
  {
    match r
    case Rejected(e) => Failure(e)
    case Resolved(reply) => if reply.Success() then Success else Failure(reply.error)
  }

  /**
   * saveWorkspace: the fetched map gets the new record under the name,
   * replacing any workspace of that name without asking, and goes through
   * saveData. Every failure is caught and answered `{success: false, error}`.
   */
  function SaveWorkspaceStep(s: State, size: Store -> nat, name: string, category: string, tabs: seq<Tab>,
                             now: string, read: ReadFaults, save: SaveFaults): Step<Response>
  {
    match ReadWorkspaces(s, read)
    case Rejected(e) => Step(s, Failure(e))
    case Resolved(ws) =>
      var r := SaveData(s, size, Payload(Some(WithNewRecord(ws, name, tabs, now, category)), None), save);
      Step(r.state, Answer(r.result))
  }

  method SaveWorkspace(sm: StorageManager, name: string, category: string, tabs: seq<Tab>, now: string,
                       read: ReadFaults, save: SaveFaults) returns (response: Response)
    requires sm.Valid()
    modifies sm
    ensures sm.Valid()
    ensures Step(sm.State(), response) == SaveWorkspaceStep(old(sm.State()), sm.size, name, category, tabs, now, read, save)
  {
    var got := sm.GetWorkspaces(read);
    if got.Rejected? {
      return Failure(got.error);
    }
    var workspaces := got.value;
    workspaces := workspaces[name := NewRecord(tabs, now, category)];
    var result := sm.SaveData(Payload(Some(workspaces), None), save);
    return Answer(result);
  }

  /** The listener's step for one message; the saveTabs cleanup runs whatever the answer. */
  function MessageStep(s: State, size: Store -> nat, request: Request, now: string, read: ReadFaults,
                       save: SaveFaults, cleanupFails: bool): Step<Response>
  {
    match request
    case SaveTabs(name, category, tabs) =>
      var saved := SaveWorkspaceStep(s, size, name, category.GetOr(""), tabs, now, read, save);
      var t := saved.state;
      Step(if cleanupFails then t else t.(local := t.local - {TempTabsDataKey}), saved.result)
    case GetCategories =>
      Step(s, match ReadCategories(s, read) case Rejected(_) => Categories([]) case Resolved(c) => Categories(c))
    case GetSyncStatus => Step(s, SyncStatus(s.syncEnabled))
    case OtherAction => Step(s, NoResponse)
  }

  method HandleMessage(sm: StorageManager, request: Request, now: string, read: ReadFaults, save: SaveFaults,
                       cleanupFails: bool) returns (response: Response)
    requires sm.Valid()
    modifies sm
    ensures sm.Valid()
    ensures Step(sm.State(), response) == MessageStep(old(sm.State()), sm.size, request, now, read, save, cleanupFails)
  {
    match request {
      case SaveTabs(name, category, tabs) =>
        response := SaveWorkspace(sm, name, category.GetOr(""), tabs, now, read, save);
        var _ := sm.RemoveLocal({TempTabsDataKey}, cleanupFails);
      case GetCategories =>
        var got := sm.GetCategories(read);
        response := if got.Rejected? then Categories([]) else Categories(got.value);
      case GetSyncStatus =>
        var enabled := sm.GetSyncStatus();
        response := SyncStatus(enabled);
      case OtherAction =>
        response := NoResponse;
    }
  }

  /** The storage-change listener: a change in the Sync area pulls it into Local while sync is on. */
  method OnStorageChanged(sm: StorageManager, areaName: string, f: PullFaults) returns (pulled: Option<Reply>)
    requires sm.Valid()
    modifies sm`local
    ensures sm.Valid()
    ensures pulled.Some? <==> areaName == "sync" && old(sm.syncEnabled)
    ensures pulled.Some? ==> Step(sm.State(), pulled.value) == Pull(old(sm.State()), f)
    ensures pulled.None? ==> sm.local == old(sm.local)
  {
    var enabled := sm.GetSyncStatus();
    if areaName == "sync" && enabled {
      var r := sm.PullSyncToLocal(f);
      return Some(r);
    }
    return None;
  }

  /**
   * The response is `{success: true}` exactly when saveData reported success;
   * when saveData switched sync off the response is a plain failure, without
   * the syncDisabled flag, although sync is now off.
   */
  lemma SaveWorkspaceAnswer(s: State, size: Store -> nat, name: string, category: string, tabs: seq<Tab>,
                            now: string, read: ReadFaults, save: SaveFaults)
    requires ReadWorkspaces(s, read).Resolved?
    ensures var ws := ReadWorkspaces(s, read).value;
      var r := SaveData(s, size, Payload(Some(WithNewRecord(ws, name, tabs, now, category)), None), save);
      var t := SaveWorkspaceStep(s, size, name, category, tabs, now, read, save);
      && (t.result == Success <==> r.result == Resolved(Ok))
      && (r.result.Resolved? && r.result.value.SyncDisabled? ==>
            t.result == Failure(r.result.value.error) && !t.state.syncEnabled)
  {
    var ws := ReadWorkspaces(s, read).value;
    var data := Payload(Some(WithNewRecord(ws, name, tabs, now, category)), None);
    SyncProperties.SaveDataSyncDisabledOnlyOnFailure(s, size, data, save);
  }

  /**
   * With sync off and no failure, Local's workspaces become the fetched map
   * with the new record: tab count equal to the number of tabs, the given
   * category, no update time, every other workspace unchanged, and a
   * same-named workspace replaced.
   */
  lemma SaveWorkspaceRecord(s: State, size: Store -> nat, name: string, category: string, tabs: seq<Tab>,
                            now: string, read: ReadFaults)
    requires !s.syncEnabled && !read.localGet
    ensures var ws := WorkspacesIn(s.local).GetOr(map[]);
      var t := SaveWorkspaceStep(s, size, name, category, tabs, now, read, SaveFaults(false, false, false, false));
      && t.result == Success
      && WorkspacesIn(t.state.local).Some?
      && var after := WorkspacesIn(t.state.local).value;
      && after.Keys == ws.Keys + {name}
      && after[name] == NewRecord(tabs, now, category)
      && after[name].tabCount == |tabs| && after[name].updatedAt == None && after[name].category == category
      && (forall n :: n in ws && n != name ==> after[n] == ws[n])
  {
  }

  /** A saveTabs request without a category saves the workspace with category "". */
  lemma MissingCategoryIsEmpty(s: State, size: Store -> nat, name: string, tabs: seq<Tab>, now: string,
                               read: ReadFaults, save: SaveFaults, cleanupFails: bool)
    ensures MessageStep(s, size, SaveTabs(name, None, tabs), now, read, save, cleanupFails) ==
            MessageStep(s, size, SaveTabs(name, Some(""), tabs), now, read, save, cleanupFails)
  {
  }

  /** After saveTabs the temporary tabs are removed from Local, whether the save succeeded or not. */
  lemma SaveTabsCleansUp(s: State, size: Store -> nat, name: string, category: Option<string>, tabs: seq<Tab>,
                         now: string, read: ReadFaults, save: SaveFaults)
    ensures TempTabsDataKey !in MessageStep(s, size, SaveTabs(name, category, tabs), now, read, save, false).state.local
  {
  }

  /** getCategories answers the stored list, or an empty list when reading fails; getSyncStatus answers the cache. */
  lemma ReadOnlyMessages(s: State, size: Store -> nat, now: string, read: ReadFaults, save: SaveFaults, cleanupFails: bool)
    ensures MessageStep(s, size, GetCategories, now, read, save, cleanupFails).state == s
    ensures read.localGet && (!s.syncEnabled || read.syncGet || CategoriesIn(s.sync).None?) ==>
              MessageStep(s, size, GetCategories, now, read, save, cleanupFails).result == Categories([])
    ensures !read.localGet && !s.syncEnabled ==>
              MessageStep(s, size, GetCategories, now, read, save, cleanupFails).result ==
                Categories(CategoriesIn(s.local).GetOr([]))
    ensures MessageStep(s, size, GetSyncStatus, now, read, save, cleanupFails) == Step(s, SyncStatus(s.syncEnabled))
  {
  }

  /**
   * Every extension page loads its own StorageManager, and only the two
   * storage areas are shared. When another page switches sync on, the
   * background's instance keeps its own cached flag: if that flag is off, a
   * save from the background writes Local only, although the stored flag now
   * says sync is on.
   */
  lemma StaleFlagSavesLocalOnly(page: State, size: Store -> nat, push: PushFaults, data: Payload, f: SaveFaults)
    requires !f.localSet
    ensures var t := SetSyncStatus(page, size, true, false, push);
      var background := State(t.state.local, t.state.sync, false);
      && (t.result.Resolved? && t.state.syncEnabled ==> PersistedFlag(background.local))
      && SaveData(background, size, data, f) == Step(background.(local := background.local + Fragment(data)), Resolved(Ok))
  {
    var t := SetSyncStatus(page, size, true, false, push);
    if t.result.Resolved? {
      SyncProperties.SetSyncStatusEstablishesFlag(page, size, true, push);
    }
  }
}

=== FILE: key_order.dfy ===
/**
 * The order in which `Object.entries` lists the string keys of an ordinary
 * JavaScript object (section 10.1.11.1, OrdinaryOwnPropertyKeys, of
 * ECMA-262): first the keys that are array indices, in ascending numeric
 * order, then the other keys in the order they were created. The popup
 * renders its category groups in this order, so a category whose name is an
 * array index (such as "7" or "2024") is shown before the no-category group
 * that was created first.
 */
module KeyOrder {
  import opened Sequences
  import opened Values
  import opened WorkspaceList

  predicate IsDigit(c: char) {
    '0' <= c <= '9'
  }

  /** The number a string of decimal digits denotes. */
  function DigitsValue(s: string): nat {
    if s == "" then 0
    else DigitsValue(s[..|s| - 1]) * 10 + (if IsDigit(s[|s| - 1]) then s[|s| - 1] as int - '0' as int else 0)
  }

  /** A canonical decimal numeral of an integer from 0 to 2^32 - 2. */
  predicate IsArrayIndex(k: string) {
    && k != ""
    && (forall i :: 0 <= i < |k| ==> IsDigit(k[i]))
    && (k == "0" || k[0] != '0')
    && DigitsValue(k) <= 0xFFFF_FFFE
  }

  /** A key that is not an array index: listed after the index keys, in creation order. */
  predicate IsNamedKey(k: string) {
    !IsArrayIndex(k)
  }

  /** The keys ascend by the number they denote. */
  predicate Ascending(s: seq<string>) {
    AscendingBy(s, DigitsValue)
  }

  /** The elements ascend under `v`. */
  predicate AscendingBy<T>(s: seq<T>, v: T -> nat) {
    forall i, j :: 0 <= i < j < |s| ==> v(s[i]) <= v(s[j])
  }

  /** An element no greater under `v` than any element of an ascending list can go in front of it. */
  lemma AscendingCons<T>(k: T, s: seq<T>, v: T -> nat)
    requires AscendingBy(s, v)
    requires forall x :: x in s ==> v(k) <= v(x)
    ensures AscendingBy([k] + s, v)
  {
    forall i, j | 0 <= i < j < |[k] + s|
      ensures v(([k] + s)[i]) <= v(([k] + s)[j])
    {
      assert ([k] + s)[j] == s[j - 1];
      assert s[j - 1] in s;
    }
  }

  /** An element no greater than the head of an ascending list is no greater than any of its elements. */
  lemma HeadIsLeast<T>(k: T, s: seq<T>, v: T -> nat)
    requires AscendingBy(s, v)
    requires s != [] ==> v(k) <= v(s[0])
    ensures forall x :: x in s ==> v(k) <= v(x)
  {
    forall x | x in s
      ensures v(k) <= v(x)
    {
      var i :| 0 <= i < |s| && s[i] == x;
      assert i == 0 || v(s[0]) <= v(s[i]);
    }
  }

  /** Putting `k` in front of an ascending list it does not exceed. */
  lemma InsertFront<T>(k: T, sorted: seq<T>, v: T -> nat)
    requires AscendingBy(sorted, v) && (sorted != [] ==> v(k) <= v(sorted[0]))
    ensures forall x :: x in [k] + sorted <==> x == k || x in sorted
    ensures multiset([k] + sorted) == multiset(sorted) + multiset{k}
    ensures AscendingBy([k] + sorted, v)
  {
    HeadIsLeast(k, sorted, v);
    AscendingCons(k, sorted, v);
  }

  /** Keeping the head of an ascending list in front of `rest`, the insertion of `k` into its tail. */
  lemma InsertBehind<T>(k: T, sorted: seq<T>, rest: seq<T>, v: T -> nat)
    requires sorted != [] && AscendingBy(sorted, v) && v(sorted[0]) <= v(k)
    requires forall x :: x in rest <==> x == k || x in sorted[1..]
    requires multiset(rest) == multiset(sorted[1..]) + multiset{k}
    requires AscendingBy(rest, v)
    ensures forall x :: x in [sorted[0]] + rest <==> x == k || x in sorted
    ensures multiset([sorted[0]] + rest) == multiset(sorted) + multiset{k}
    ensures AscendingBy([sorted[0]] + rest, v)
  {
    assert sorted == [sorted[0]] + sorted[1..];
    HeadIsLeast(sorted[0], sorted[1..], v);
    AscendingCons(sorted[0], rest, v);
  }

  /** Inserts an index key into an ascending list of index keys. */
  function InsertByValue(k: string, sorted: seq<string>): (r: seq<string>)
    requires Ascending(sorted)
    ensures |r| == |sorted| + 1
    ensures forall x :: x in r <==> x == k || x in sorted
    ensures multiset(r) == multiset(sorted) + multiset{k}
    ensures Ascending(r)
  {
    if sorted == [] || DigitsValue(k) <= DigitsValue(sorted[0]) then
      InsertFront(k, sorted, DigitsValue);
      [k] + sorted
    else
      var rest := InsertByValue(k, sorted[1..]);
      InsertBehind(k, sorted, rest, DigitsValue);
      [sorted[0]] + rest
  }

  /** The index keys in ascending numeric order. */
  function SortByValue(keys: seq<string>): (r: seq<string>)
    ensures |r| == |keys|
    ensures forall x :: x in r <==> x in keys
    ensures multiset(r) == multiset(keys)
    ensures Ascending(r)
  {
    if keys == [] then [] else
    assert keys == [keys[0]] + keys[1..];
    InsertByValue(keys[0], SortByValue(keys[1..]))
  }

  /**
   * The order `Object.entries` lists keys created in the given order: the
   * same keys, each as often, every index key before every other key, the index keys in
   * ascending numeric order and the other keys in creation order.
   */
  function OwnKeyOrder(keys: seq<string>): (r: seq<string>)
    ensures forall x :: x in r <==> x in keys
    ensures multiset(r) == multiset(keys)
    ensures forall i, j :: 0 <= i < j < |r| && IsNamedKey(r[i]) ==> IsNamedKey(r[j])
    ensures forall i, j :: 0 <= i < j < |r| && IsArrayIndex(r[j]) ==> DigitsValue(r[i]) <= DigitsValue(r[j])
    ensures Keep(r, IsNamedKey) == Keep(keys, IsNamedKey)
  {
    var indices := SortByValue(Keep(keys, IsArrayIndex));
    var named := Keep(keys, IsNamedKey);
    KeepPasses(keys, indices, IsArrayIndex);
    KeepPasses(keys, named, IsNamedKey);
    PartitionOrder(indices, named, IsNamedKey, DigitsValue);
    PartitionKeep(indices, named, IsNamedKey);
    KeepSplit(keys, IsArrayIndex, IsNamedKey);
    indices + named
  }

  /** Every element of a list holding only kept elements passes the test. */
  lemma KeepPasses<T(!new)>(s: seq<T>, t: seq<T>, p: T -> bool)
    requires forall x :: x in t ==> x in Keep(s, p)
    ensures forall i :: 0 <= i < |t| ==> p(t[i])
  {
    forall i | 0 <= i < |t|
      ensures p(t[i])
    {
      assert t[i] in Keep(s, p);
    }
  }

  /**
   * Elements failing `p`, ascending by `v`, followed by elements passing
   * `p`: no failing element comes after a passing one, and the failing ones
   * ascend.
   */
  lemma PartitionOrder<T>(front: seq<T>, back: seq<T>, p: T -> bool, v: T -> nat)
    requires forall i :: 0 <= i < |front| ==> !p(front[i])
    requires forall i :: 0 <= i < |back| ==> p(back[i])
    requires forall i, j :: 0 <= i < j < |front| ==> v(front[i]) <= v(front[j])
    ensures forall i, j :: 0 <= i < j < |front + back| && p((front + back)[i]) ==> p((front + back)[j])
    ensures forall i, j :: 0 <= i < j < |front + back| && !p((front + back)[j]) ==>
      v((front + back)[i]) <= v((front + back)[j])
  {
    var r := front + back;
    assert forall k :: 0 <= k < |front| ==> r[k] == front[k];
    assert forall k :: |front| <= k < |r| ==> r[k] == back[k - |front|];
  }

  /** Filtering such a concatenation by `p` gives back the passing elements in order. */
  lemma PartitionKeep<T(!new)>(front: seq<T>, back: seq<T>, p: T -> bool)
    requires forall i :: 0 <= i < |front| ==> !p(front[i])
    requires forall i :: 0 <= i < |back| ==> p(back[i])
    ensures Keep(front + back, p) == back
  {
    KeepAppend(front, back, p);
    KeepAll(back, p);
    KeepNone(front, p);
  }

  /**
   * The category groups in the order the popup renders them, as written: the
   * grouping object's keys in `Object.entries` order, empty groups skipped. It
   * shows the same groups as the creation order; only their order differs.
   */
  function RenderedAsWritten(keys: seq<string>, groups: map<string, seq<Entry>>): (r: seq<(string, seq<Entry>)>)
    requires forall i :: 0 <= i < |keys| ==> keys[i] in groups
    ensures forall g :: g in r <==> g.0 in keys && g.0 in groups && g.1 == groups[g.0] && g.1 != []
  {
    var order := OwnKeyOrder(keys);
    assert forall i :: 0 <= i < |order| ==> order[i] in groups by {
      forall i | 0 <= i < |order|
        ensures order[i] in groups
      {
        assert order[i] in keys;
      }
    }
    Rendered(order, groups)
  }

  /** "7" is an array index and "" is not, so "7" is listed first. */
  lemma OwnKeyOrderExample()
    ensures OwnKeyOrder(["", "7"]) == ["7", ""]
  {
    IndexKeysExample();
    assert ["7"][1..] == [];
    assert InsertByValue("7", []) == ["7"];
    assert SortByValue(["7"]) == ["7"];
    assert ["7"] + [""] == ["7", ""];
  }

  /** Of the keys "" and "7", only "7" is an array index. */
  lemma IndexKeysExample()
    ensures Keep(["", "7"], IsArrayIndex) == ["7"]
    ensures Keep(["", "7"], IsNamedKey) == [""]
  {
    assert IsArrayIndex("7") by {
      assert "7"[..0] == "";
    }
    assert !IsArrayIndex("");
    assert ["", "7"][..1] == [""];
    assert [""][..0] == [];
  }

  /** The grouping object of a "7" workspace listed before one without a category. */
  lemma GroupsExample(w: Workspace, v: Workspace)
    requires w.category == "7" && v.category == ""
    ensures GroupsOf([("a", w), ("b", v)], ["", "7"], map["" := [("b", v)], "7" := [("a", w)]])
  {
    var listed := [("a", w), ("b", v)];
    assert Categories(listed) == ["7", ""];
    assert [""] + Categories(listed) == ["", "7", ""];
    assert Dedup(["", "7", ""]) == ["", "7"] by {
      assert ["", "7", ""][..2] == ["", "7"];
      assert ["", "7"][..1] == [""];
      assert [""][..0] == [];
    }
    assert listed[..1] == [("a", w)];
    assert [("a", w)][..0] == [];
    assert InCategory([("a", w)], "") == [];
    assert InCategory([("a", w)], "7") == [("a", w)];
  }

  /**
   * Two workspaces, one in category "7" listed first and one without a
   * category: the grouping object is {"": [...], "7": [...]} with "" created
   * first, yet the rendering puts the "7" group first.
   */
  lemma IndexCategoryRenderedFirst(w: Workspace, v: Workspace)
    requires w.category == "7" && v.category == ""
    ensures var groups := map["" := [("b", v)], "7" := [("a", w)]];
      && GroupsOf([("a", w), ("b", v)], ["", "7"], groups)
      && groups[""] != []
      && |RenderedAsWritten(["", "7"], groups)| == 2
      && RenderedAsWritten(["", "7"], groups)[0].0 == "7"
  {
    var groups := map["" := [("b", v)], "7" := [("a", w)]];
    GroupsExample(w, v);
    OwnKeyOrderExample();
    RenderedTwo("7", "", groups);
  }

  lemma RenderedTwo(first: string, second: string, groups: map<string, seq<Entry>>)
    requires first in groups && second in groups && groups[first] != [] && groups[second] != []
    ensures Rendered([first, second], groups) == [(first, groups[first]), (second, groups[second])]
  {
    RenderedAllShown([first, second], groups);
  }

  /** The first group rendered in the given order, when that group is non-empty, leads the rendering. */
  lemma RenderedHead(order: seq<string>, groups: map<string, seq<Entry>>)
    requires forall i :: 0 <= i < |order| ==> order[i] in groups
    requires |order| > 0 && groups[order[0]] != []
    ensures |Rendered(order, groups)| > 0 && Rendered(order, groups)[0] == (order[0], groups[order[0]])
  {
    assert order == [order[0]] + order[1..];
    RenderedSingleton(order[0], groups);
    RenderedAppend([order[0]], order[1..], groups);
  }

  /**
   * Rendering the groups in the order they were created puts the
   * no-category group first whenever it is non-empty, as intended, and then
   * every category group once, in the order its category first appears.
   */
  lemma NoCategoryRenderedFirst(listed: seq<Entry>, keys: seq<string>, groups: map<string, seq<Entry>>)
    requires GroupsOf(listed, keys, groups) && "" in groups && groups[""] != []
    ensures forall i :: 0 <= i < |keys| ==> keys[i] in groups
    ensures |Rendered(keys, groups)| > 0 && Rendered(keys, groups)[0] == ("", groups[""])
    ensures var order := Dedup([""] + Categories(listed));
      Rendered(keys, groups) == seq(|order|, i requires 0 <= i < |order| => (order[i], groups[order[i]]))
  {
    GroupKeys(listed, keys, groups);
    RenderedHead(keys, groups);
    OnlyNoCategoryGroupEmpty(listed, keys, groups);
    RenderedAllShown(keys, groups);
  }
}

=== FILE: popup_actions.dfy ===
/**
 * The popup's write actions with their dialogs reduced to outcomes: adding a
 * category, saving the current tabs as a workspace, updating a workspace with
 * the current tabs and deleting a workspace. The tabs of the current window,
 * the clock and the user's answer to a confirmation are parameters. Each
 * action is a method over the StorageManager object, proved to end in the
 * state and outcome a transition function over SyncPolicy gives.
 */
module PopupActions {
  import opened Values
  import opened Sequences
  import opened SyncPolicy
  import opened Storage

  /** Why an action shows an error dialog without writing anything. */
  datatype Refusal = NameRequired | NotFound | AlreadyExists | InvalidWorkspace(name: string)

  /** What an action ends with, as the user sees it. */
  datatype Outcome =
    | Ignored              // nothing happens: a blank category name, a declined confirmation
    | Refused(why: Refusal)
    | Saved(reply: Reply)  // saveData settled with this reply; its dialog follows from it
    | Deleted
    | Caught(error: Error) // a rejection the action catches and reports
    | Uncaught(error: Error) // a rejection in a callback or dialog handler that nothing catches

  /** The outcome of a saveData call awaited inside the action's try block: a rejection is caught. */
  function Settle(r: Settled<Reply>): Outcome {
    if r.Rejected? then Caught(r.error) else Saved(r.value)
  }

  /**
   * The outcome of a saveData call in a dialog button's handler or a
   * tabs-query callback: showDialog calls the handler without awaiting it,
   * so the enclosing try block has already finished and a rejection is
   * left unhandled.
   */
  function Unhandled(r: Settled<Reply>): Outcome {
    if r.Rejected? then Uncaught(r.error) else Saved(r.value)
  }

  // ----------------------------------------------------------- addNewCategory

  datatype CategoryDecision = Blank | Exists | Append(categories: seq<string>)

  /**
   * addNewCategory's check: the trimmed name is ignored when empty, refused
   * when the list already holds it (case-sensitively), else appended.
   */
  function DecideCategory(input: string, existing: seq<string>): (r: CategoryDecision)
    ensures r == Blank <==> Trim(input) == ""
    ensures r == Exists <==> Trim(input) != "" && Trim(input) in existing
    ensures r.Append? ==> r.categories == existing + [Trim(input)]
  {
    var name := Trim(input);
    if name == "" then Blank
    else if name in existing then Exists
    else Append(existing + [name])
  }

  /** Appending keeps the category list free of duplicates; a name of blanks is never added. */
  lemma DecideCategoryKeepsUnique(input: string, existing: seq<string>)
    requires NoDuplicates(existing)
    ensures DecideCategory(input, existing).Append? ==>
      && NoDuplicates(DecideCategory(input, existing).categories)
      && |DecideCategory(input, existing).categories| == |existing| + 1
    ensures DecideCategory(input, existing) == Blank <==> forall i :: 0 <= i < |input| ==> IsJsWhitespace(input[i])
  {
    TrimEmpty(input);
  }

  /** The duplicate check is exact: names differing only in case are both kept. */
  lemma DecideCategoryIsCaseSensitive()
    ensures DecideCategory(" work ", ["Work"]) == Append(["Work", "work"])
  {
    TrimExample();
    assert "work"[0] != "Work"[0];
    assert "work" !in ["Work"];
    assert ["Work"] + ["work"] == ["Work", "work"];
  }

  lemma TrimExample()
    ensures Trim(" work ") == "work"
  {
    TrimStartExample();
    TrimEndExample();
  }

  lemma TrimStartExample()
    ensures TrimStart(" work ") == "work "
  {
    var s := " work ";
    assert s[0] == ' ' && s[1..] == "work ";
    var t := "work ";
    assert t[0] == 'w' && !IsJsWhitespace(t[0]);
  }

  lemma TrimEndExample()
    ensures TrimEnd("work ") == "work"
  {
    var s := "work ";
    assert s[|s| - 1] == ' ' && s[..|s| - 1] == "work";
    var t := "work";
    assert t[|t| - 1] == 'k' && !IsJsWhitespace(t[|t| - 1]);
  }

  function AddCategoryStep(s: State, size: Store -> nat, input: string, read: ReadFaults, save: SaveFaults): Step<Outcome> {
    if Trim(input) == "" then Step(s, Ignored)
    else
      match ReadCategories(s, read)
      case Rejected(e) => Step(s, Caught(e))
      case Resolved(existing) =>
        match DecideCategory(input, existing)
        case Blank => Step(s, Ignored)
        case Exists => Step(s, Refused(AlreadyExists))
        case Append(categories) =>
          var r := SaveData(s, size, Payload(None, Some(categories)), save);
          Step(r.state, Settle(r.result))
  }

  method AddNewCategory(sm: StorageManager, input: string, read: ReadFaults, save: SaveFaults) returns (r: Outcome)
    requires sm.Valid()
    modifies sm
    ensures sm.Valid()
    ensures Step(sm.State(), r) == AddCategoryStep(old(sm.State()), sm.size, input, read, save)
  {
    var name := Trim(input);
    if name == "" {
      return Ignored;
    }
    var got := sm.GetCategories(read);
    if got.Rejected? {
      return Caught(got.error);
    }
    var categories := got.value;
    if name in categories {
      return Refused(AlreadyExists);
    }
    categories := categories + [name];
    var saved := sm.SaveData(Payload(None, Some(categories)), save);
    return Settle(saved);
  }

  /** A blank or duplicate name writes nothing; a new one is saved appended at the end. */
  lemma AddCategoryEffects(s: State, size: Store -> nat, input: string, read: ReadFaults, save: SaveFaults)
    requires !read.localGet
    ensures var existing := ReadCategories(s, read).value;
      var t := AddCategoryStep(s, size, input, read, save);
      && (Trim(input) == "" ==> t == Step(s, Ignored))
      && (Trim(input) != "" && Trim(input) in existing ==> t == Step(s, Refused(AlreadyExists)))
      && (Trim(input) != "" && Trim(input) !in existing ==>
            t == (var r := SaveData(s, size, Payload(None, Some(existing + [Trim(input)])), save);
                  Step(r.state, Settle(r.result))))
  {
  }

  /** With sync off, a new category ends up last in Local's list. */
  lemma AddCategoryAppendsLocally(s: State, size: Store -> nat, input: string, read: ReadFaults)
    requires !s.syncEnabled && !read.localGet
    requires Trim(input) != "" && Trim(input) !in ReadCategories(s, read).value
    ensures var t := AddCategoryStep(s, size, input, read, SaveFaults(false, false, false, false));
      && t.result == Saved(Ok)
      && CategoriesIn(t.state.local) == Some(CategoriesIn(s.local).GetOr([]) + [Trim(input)])
  {
  }

  // ---------------------------------------------------------- saveCurrentTabs

  /** The workspace map saveCurrentTabs writes: the fetched map with the new record under the name. */
  function WithNewRecord(ws: map<string, Workspace>, name: string, tabs: seq<Tab>, now: string, category: string)
    : (r: map<string, Workspace>)
    ensures r.Keys == ws.Keys + {name}
    ensures r[name] == NewRecord(tabs, now, category)
    ensures forall n :: n in ws && n != name ==> r[n] == ws[n]
  {
    ws[name := NewRecord(tabs, now, category)]
  }

  /**
   * saveCurrentTabs: a blank name is refused; an existing name is overwritten
   * only when the user confirms; the record goes through saveData. A new
   * name is saved inside the try block, so a rejection is caught; an
   * overwrite is saved by the confirmation dialog's handler, where it is not.
   */
  function SaveTabsStep(s: State, size: Store -> nat, nameInput: string, category: string, tabs: seq<Tab>,
                        now: string, confirm: bool, read: ReadFaults, save: SaveFaults): Step<Outcome>
  {
    var name := Trim(nameInput);
    if name == "" then Step(s, Refused(NameRequired))
    else
      match ReadWorkspaces(s, read)
      case Rejected(e) => Step(s, Caught(e))
      case Resolved(ws) =>
        if name in ws && !confirm then Step(s, Ignored)
        else
          var r := SaveData(s, size, Payload(Some(WithNewRecord(ws, name, tabs, now, category)), None), save);
          Step(r.state, if name in ws then Unhandled(r.result) else Settle(r.result))
  }

  method SaveCurrentTabs(sm: StorageManager, nameInput: string, category: string, tabs: seq<Tab>, now: string,
                         confirm: bool, read: ReadFaults, save: SaveFaults) returns (r: Outcome)
    requires sm.Valid()
    modifies sm
    ensures sm.Valid()
    ensures Step(sm.State(), r) == SaveTabsStep(old(sm.State()), sm.size, nameInput, category, tabs, now, confirm, read, save)
  {
    var name := Trim(nameInput);
    if name == "" {
      return Refused(NameRequired);
    }
    var got := sm.GetWorkspaces(read);
    if got.Rejected? {
      return Caught(got.error);
    }
    var workspaces := got.value;
    if name in workspaces {
      if !confirm {
        return Ignored;
      }
      workspaces := workspaces[name := NewRecord(tabs, now, category)];
      var overwritten := sm.SaveData(Payload(Some(workspaces), None), save);
      return Unhandled(overwritten);
    }
    workspaces := workspaces[name := NewRecord(tabs, now, category)];
    var saved := sm.SaveData(Payload(Some(workspaces), None), save);
    return Settle(saved);
  }

  /**
   * With sync off and no failure, Local's workspaces become the fetched map
   * with the new record: tab count equal to the number of tabs, no update
   * time, every other workspace unchanged.
   */
  lemma SaveTabsRecord(s: State, size: Store -> nat, nameInput: string, category: string, tabs: seq<Tab>,
                       now: string, read: ReadFaults)
    requires !s.syncEnabled && !read.localGet && Trim(nameInput) != ""
    ensures var ws := ReadWorkspaces(s, read).value;
      var t := SaveTabsStep(s, size, nameInput, category, tabs, now, true, read, SaveFaults(false, false, false, false));
      && t.result == Saved(Ok)
      && WorkspacesIn(t.state.local) == Some(WithNewRecord(ws, Trim(nameInput), tabs, now, category))
      && CountMatches(WorkspacesIn(t.state.local).value[Trim(nameInput)])
      && WorkspacesIn(t.state.local).value[Trim(nameInput)].updatedAt == None
  {
  }

  /** Declining to overwrite an existing workspace writes nothing. */
  lemma SaveTabsDeclined(s: State, size: Store -> nat, nameInput: string, category: string, tabs: seq<Tab>,
                         now: string, read: ReadFaults, save: SaveFaults)
    requires Trim(nameInput) != ""
    requires ReadWorkspaces(s, read).Resolved? && Trim(nameInput) in ReadWorkspaces(s, read).value
    ensures SaveTabsStep(s, size, nameInput, category, tabs, now, false, read, save) == Step(s, Ignored)
  {
  }

  /**
   * A failed Local write in saveData is reported for a new name and left
   * unhandled for a confirmed overwrite; either way nothing is written.
   */
  lemma SaveTabsRejection(s: State, size: Store -> nat, nameInput: string, category: string, tabs: seq<Tab>,
                          now: string, read: ReadFaults, save: SaveFaults)
    requires Trim(nameInput) != "" && ReadWorkspaces(s, read).Resolved? && save.localSet
    ensures var t := SaveTabsStep(s, size, nameInput, category, tabs, now, true, read, save);
      && t.state == s
      && (Trim(nameInput) in ReadWorkspaces(s, read).value <==> t.result == Uncaught(BackendError))
      && (Trim(nameInput) !in ReadWorkspaces(s, read).value <==> t.result == Caught(BackendError))
  {
  }

  // ---------------------------------------------------------- updateWorkspace

  /** The updated record: the original creation time and category, the new tabs and count, an update time. */
  function UpdatedRecord(w: Workspace, tabs: seq<Tab>, now: string): (r: Workspace)
    ensures r.createdAt == w.createdAt && r.category == w.category
    ensures r.tabs == tabs && CountMatches(r) && r.updatedAt == Some(now)
  {
    Workspace(tabs, w.createdAt, |tabs|, w.category, Some(now))
  }

  /**
   * updateWorkspace after confirmation: an unknown name is refused; otherwise
   * the fetched map with the updated record goes through saveData. Its steps
   * run in a tabs-query callback, so a rejection there is not caught.
   */
  function UpdateStep(s: State, size: Store -> nat, name: string, tabs: seq<Tab>, now: string,
                      read: ReadFaults, save: SaveFaults): Step<Outcome>
  {
    match ReadWorkspaces(s, read)
    case Rejected(e) => Step(s, Uncaught(e))
    case Resolved(ws) =>
      if name !in ws then Step(s, Refused(NotFound))
      else
        var r := SaveData(s, size, Payload(Some(ws[name := UpdatedRecord(ws[name], tabs, now)]), None), save);
        Step(r.state, Unhandled(r.result))
  }

  method UpdateWorkspace(sm: StorageManager, name: string, tabs: seq<Tab>, now: string,
                         read: ReadFaults, save: SaveFaults) returns (r: Outcome)
    requires sm.Valid()
    modifies sm
    ensures sm.Valid()
    ensures Step(sm.State(), r) == UpdateStep(old(sm.State()), sm.size, name, tabs, now, read, save)
  {
    var got := sm.GetWorkspaces(read);
    if got.Rejected? {
      return Uncaught(got.error);
    }
    var workspaces := got.value;
    if name !in workspaces {
      return Refused(NotFound);
    }
    workspaces := workspaces[name := UpdatedRecord(workspaces[name], tabs, now)];
    var saved := sm.SaveData(Payload(Some(workspaces), None), save);
    return Unhandled(saved);
  }

  /**
   * With sync off and no failure, only the named workspace changes: it keeps
   * its creation time and category and takes the new tabs.
   */
  lemma UpdateChangesOnlyName(s: State, size: Store -> nat, name: string, tabs: seq<Tab>, now: string, read: ReadFaults)
    requires !s.syncEnabled && !read.localGet
    requires name in ReadWorkspaces(s, read).value
    ensures var ws := ReadWorkspaces(s, read).value;
      var t := UpdateStep(s, size, name, tabs, now, read, SaveFaults(false, false, false, false));
      && t.result == Saved(Ok)
      && WorkspacesIn(t.state.local).Some?
      && var after := WorkspacesIn(t.state.local).value;
      && after.Keys == ws.Keys
      && (forall n :: n in ws && n != name ==> after[n] == ws[n])
      && after[name].createdAt == ws[name].createdAt && after[name].category == ws[name].category
      && after[name].tabs == tabs && after[name].tabCount == |tabs|
  {
  }

  /** Updating an unknown workspace writes nothing. */
  lemma UpdateUnknownRefused(s: State, size: Store -> nat, name: string, tabs: seq<Tab>, now: string,
                             read: ReadFaults, save: SaveFaults)
    requires ReadWorkspaces(s, read).Resolved? && name !in ReadWorkspaces(s, read).value
    ensures UpdateStep(s, size, name, tabs, now, read, save) == Step(s, Refused(NotFound))
  {
  }

  // ---------------------------------------------------------- deleteWorkspace

  /** The copy loop of deleteWorkspace: every entry of the map except the named one. */
  method CopyWithout(ws: map<string, Workspace>, name: string) returns (updated: map<string, Workspace>)
    ensures updated == ws - {name}
  {
    updated := map[];
    var rest := ws.Keys;
    while rest != {}
      invariant rest <= ws.Keys
      invariant forall n :: n in updated <==> n in ws && n !in rest && n != name
      invariant forall n :: n in updated ==> updated[n] == ws[n]
      decreases rest
    {
      var n :| n in rest;
      if n != name {
        updated := updated[n := ws[n]];
      }
      rest := rest - {n};
    }
    assert updated.Keys == (ws - {name}).Keys;
  }

  /** Removing a name keeps every other workspace with its value. */
  lemma WithoutKeepsOthers(ws: map<string, Workspace>, name: string)
    ensures (ws - {name}).Keys == ws.Keys - {name}
    ensures forall n :: n in ws && n != name ==> (ws - {name})[n] == ws[n]
  {
  }

  /**
   * deleteWorkspace after confirmation: the fetched map without the name
   * replaces Local's map and, with sync on, Sync's map, with no merge and no
   * size check. Any rejection is caught; a failing Sync write leaves Local
   * already changed.
   */
  function DeleteStep(s: State, name: string, read: ReadFaults, localSetFails: bool, syncSetFails: bool): Step<Outcome> {
    match ReadWorkspaces(s, read)
    case Rejected(e) => Step(s, Caught(e))
    case Resolved(ws) =>
      if name !in ws then Step(s, Refused(NotFound))
      else
        var entry := map[WorkspacesKey := WorkspaceMap(ws - {name})];
        if localSetFails then Step(s, Caught(BackendError))
        else
          var s1 := s.(local := s.local + entry);
          if !s.syncEnabled then Step(s1, Deleted)
          else if syncSetFails then Step(s1, Caught(BackendError))
          else Step(s1.(sync := s1.sync + entry), Deleted)
  }

  method DeleteWorkspace(sm: StorageManager, name: string, read: ReadFaults, localSetFails: bool, syncSetFails: bool)
    returns (r: Outcome)
    requires sm.Valid()
    modifies sm
    ensures sm.Valid()
    ensures Step(sm.State(), r) == DeleteStep(old(sm.State()), name, read, localSetFails, syncSetFails)
  {
    var got := sm.GetWorkspaces(read);
    if got.Rejected? {
      return Caught(got.error);
    }
    var workspaces := got.value;
    if name !in workspaces {
      return Refused(NotFound);
    }
    var updated := CopyWithout(workspaces, name);
    var written := sm.SetLocal(map[WorkspacesKey := WorkspaceMap(updated)], localSetFails);
    if written.Rejected? {
      return Caught(written.error);
    }
    var enabled := sm.GetSyncStatus();
    if enabled {
      written := sm.SetSync(map[WorkspacesKey := WorkspaceMap(updated)], syncSetFails);
      if written.Rejected? {
        return Caught(written.error);
      }
    }
    return Deleted;
  }

  /**
   * A successful delete leaves Local (and Sync, when on) holding exactly the
   * fetched map without the name, whatever they held before; with sync off
   * Sync is untouched, and the flag never changes.
   */
  lemma DeleteReplacesMaps(s: State, name: string, read: ReadFaults)
    requires ReadWorkspaces(s, read).Resolved? && name in ReadWorkspaces(s, read).value
    ensures var ws := ReadWorkspaces(s, read).value;
      var t := DeleteStep(s, name, read, false, false);
      && t.result == Deleted
      && WorkspacesIn(t.state.local) == Some(ws - {name})
      && (s.syncEnabled ==> WorkspacesIn(t.state.sync) == Some(ws - {name}))
      && (!s.syncEnabled ==> t.state.sync == s.sync)
      && t.state.syncEnabled == s.syncEnabled
  {
  }

  /** Deleting an unknown name, or failing to read, writes nothing. */
  lemma DeleteNothingWritten(s: State, name: string, read: ReadFaults, localSetFails: bool, syncSetFails: bool)
    requires ReadWorkspaces(s, read).Rejected? || name !in ReadWorkspaces(s, read).value || localSetFails
    ensures DeleteStep(s, name, read, localSetFails, syncSetFails).state == s
  {
  }

  /**
   * With sync on and a Sync map present, the delete reads Sync's map, so a
   * workspace only Local held is gone from Local afterwards.
   */
  lemma DeleteDropsLocalOnlyWorkspaces(s: State, name: string, read: ReadFaults, other: string)
    requires Valid(s) && s.syncEnabled && !read.syncGet
    requires WorkspacesKey in s.sync && name in WorkspacesIn(s.sync).value
    requires other !in WorkspacesIn(s.sync).value
    ensures WorkspacesIn(DeleteStep(s, name, read, false, false).state.local).Some?
    ensures other !in WorkspacesIn(DeleteStep(s, name, read, false, false).state.local).value
  {
  }
}

=== FILE: popup_import.dfy ===
/**
 * The popup's importWorkspaces after the file has been read and parsed:
 * every entry is validated and rebuilt into a clean workspace record, then
 * merged with the stored workspaces and categories and written through
 * saveData. HTML escaping and the `new URL` protocol test are parameters
 * (`escape` and `isHttpUrl`); JSON parsing and the file checks are outside
 * the model.
 */
module Import {
  import opened Values
  import opened Sequences
  import opened SyncPolicy
  import opened Storage
  import opened PopupActions

  /** A tab as read from an import file; a missing title or icon is "". */
  datatype RawTab = RawTab(url: string, title: string, favIconUrl: string)

  /**
   * A workspace as read from an import file: its tabs when they form an
   * array, its creation time ("" when missing or empty), whether its tab
   * count is a number, and its category ("" when missing).
   */
  datatype RawWorkspace = RawWorkspace(tabs: Option<seq<RawTab>>, createdAt: string, tabCountIsNumber: bool, category: string)

  /** The structure check every entry must pass, or the whole import fails. */
  predicate WellFormed(w: RawWorkspace) {
    w.tabs.Some? && w.createdAt != "" && w.tabCountIsNumber
  }

  /** sanitizeString: a falsy string gives "", any other its HTML-escaped text. */
  function Sanitize(escape: string -> string, s: string): string {
    if s == "" then "" else escape(s)
  }

  /** A tab an import may produce: an http(s) URL or about:blank, and an icon URL that is empty or starts with "http". */
  predicate SafeTab(t: Tab, isHttpUrl: string -> bool) {
    && (isHttpUrl(t.url) || t.url == "about:blank")
    && (t.favIconUrl == "" || StartsWith(t.favIconUrl, "http"))
  }

  function RebuildTab(t: RawTab, escape: string -> string, isHttpUrl: string -> bool): (r: Tab)
    ensures SafeTab(r, isHttpUrl)
    ensures isHttpUrl(t.url) ==> r.url == t.url
    ensures !isHttpUrl(t.url) ==> r.url == "about:blank"
    ensures StartsWith(t.favIconUrl, "http") ==> r.favIconUrl == t.favIconUrl
    ensures !StartsWith(t.favIconUrl, "http") ==> r.favIconUrl == ""
    ensures r.title == Sanitize(escape, t.title)
  {
    Tab(if isHttpUrl(t.url) then t.url else "about:blank",
        Sanitize(escape, t.title),
        if StartsWith(t.favIconUrl, "http") then t.favIconUrl else "")
  }

  /** A record an import may produce: a consistent tab count, safe tabs and no update time. */
  predicate Imported(w: Workspace, isHttpUrl: string -> bool) {
    && CountMatches(w)
    && w.updatedAt == None
    && forall i :: 0 <= i < |w.tabs| ==> SafeTab(w.tabs[i], isHttpUrl)
  }

  /** The rebuilt record: the tab count is taken from the tabs, never from the file. */
  function RebuildWorkspace(w: RawWorkspace, escape: string -> string, isHttpUrl: string -> bool): (r: Workspace)
    requires WellFormed(w)
    ensures Imported(r, isHttpUrl)
    ensures |r.tabs| == |w.tabs.value| && r.createdAt == w.createdAt
    ensures forall i :: 0 <= i < |r.tabs| ==> r.tabs[i] == RebuildTab(w.tabs.value[i], escape, isHttpUrl)
    ensures r.category == Sanitize(escape, w.category)
  {
    var raw := w.tabs.value;
    Workspace(seq(|raw|, i requires 0 <= i < |raw| => RebuildTab(raw[i], escape, isHttpUrl)),
              w.createdAt, |raw|, Sanitize(escape, w.category), None)
  }

  datatype Rebuild = Invalid(name: string) | Rebuilt(workspaces: map<string, Workspace>)

  /**
   * The validation and rebuild of all entries, in `Object.entries` order
   * (array-index names first, then the others as the file lists them): the first
   * malformed entry names the failure; otherwise each sanitized name maps to
   * its rebuilt record, a later entry replacing an earlier one whose name
   * sanitizes the same.
   */
  function RebuildAll(entries: seq<(string, RawWorkspace)>, escape: string -> string, isHttpUrl: string -> bool)
    : (r: Rebuild)
    ensures r.Rebuilt? <==> forall i :: 0 <= i < |entries| ==> WellFormed(entries[i].1)
    ensures r.Rebuilt? ==> forall n :: n in r.workspaces ==> Imported(r.workspaces[n], isHttpUrl)
    ensures r.Rebuilt? ==> forall n :: n in r.workspaces <==>
      exists i :: 0 <= i < |entries| && Sanitize(escape, entries[i].0) == n
    ensures r.Invalid? ==> exists i :: 0 <= i < |entries| && entries[i].0 == r.name && !WellFormed(entries[i].1)
  {
    if entries == [] then Rebuilt(map[])
    else
      var init := entries[..|entries| - 1];
      var last := entries[|entries| - 1];
      var before := RebuildAll(init, escape, isHttpUrl);
      if before.Invalid? then before
      else if !WellFormed(last.1) then Invalid(last.0)
      else Rebuilt(before.workspaces[Sanitize(escape, last.0) := RebuildWorkspace(last.1, escape, isHttpUrl)])
  }

  /** The entry an imported name was rebuilt from: the last one whose name sanitizes to it. */
  ghost predicate RebuiltFromLast(entries: seq<(string, RawWorkspace)>, n: string, w: Workspace,
                                  escape: string -> string, isHttpUrl: string -> bool) {
    exists i :: 0 <= i < |entries| && Sanitize(escape, entries[i].0) == n && WellFormed(entries[i].1)
      && w == RebuildWorkspace(entries[i].1, escape, isHttpUrl)
      && forall j :: i < j < |entries| ==> Sanitize(escape, entries[j].0) != n
  }

  /** Each stored record is the rebuild of the last entry whose name sanitizes to its name. */
  lemma {:induction false} RebuildAllLastWins(entries: seq<(string, RawWorkspace)>, escape: string -> string,
                                              isHttpUrl: string -> bool)
    requires RebuildAll(entries, escape, isHttpUrl).Rebuilt?
    ensures var ws := RebuildAll(entries, escape, isHttpUrl).workspaces;
      forall n :: n in ws ==> RebuiltFromLast(entries, n, ws[n], escape, isHttpUrl)
  {
    if entries != [] {
      var init := entries[..|entries| - 1];
      var last := entries[|entries| - 1];
      assert entries == init + [last];
      var before := RebuildAll(init, escape, isHttpUrl).workspaces;
      var key := Sanitize(escape, last.0);
      assert WellFormed(last.1);
      var ws := before[key := RebuildWorkspace(last.1, escape, isHttpUrl)];
      assert RebuildAll(entries, escape, isHttpUrl).workspaces == ws;
      RebuildAllLastWins(init, escape, isHttpUrl);
      LastEntryWins(entries, init, last, escape, isHttpUrl);
      forall n | n in ws && n != key
        ensures RebuiltFromLast(entries, n, ws[n], escape, isHttpUrl)
      {
        EarlierEntryKept(entries, init, last, n, before[n], escape, isHttpUrl);
      }
    }
  }

  lemma LastEntryWins(entries: seq<(string, RawWorkspace)>, init: seq<(string, RawWorkspace)>, last: (string, RawWorkspace),
                      escape: string -> string, isHttpUrl: string -> bool)
    requires entries == init + [last] && WellFormed(last.1)
    ensures RebuiltFromLast(entries, Sanitize(escape, last.0), RebuildWorkspace(last.1, escape, isHttpUrl), escape, isHttpUrl)
  {
    assert entries[|entries| - 1] == last;
  }

  lemma EarlierEntryKept(entries: seq<(string, RawWorkspace)>, init: seq<(string, RawWorkspace)>, last: (string, RawWorkspace),
                         n: string, w: Workspace, escape: string -> string, isHttpUrl: string -> bool)
    requires entries == init + [last] && Sanitize(escape, last.0) != n
    requires RebuiltFromLast(init, n, w, escape, isHttpUrl)
    ensures RebuiltFromLast(entries, n, w, escape, isHttpUrl)
  {
    var i :| 0 <= i < |init| && Sanitize(escape, init[i].0) == n && WellFormed(init[i].1)
      && w == RebuildWorkspace(init[i].1, escape, isHttpUrl)
      && forall j :: i < j < |init| ==> Sanitize(escape, init[j].0) != n;
    assert entries[i] == init[i];
    forall j | i < j < |entries|
      ensures Sanitize(escape, entries[j].0) != n
    {
      if j < |init| {
        assert entries[j] == init[j];
      } else {
        assert entries[j] == last;
      }
    }
  }

  /** Once an entry fails, the entries after it do not matter. */
  lemma {:induction false} RebuildAllStops(p: seq<(string, RawWorkspace)>, q: seq<(string, RawWorkspace)>,
                                            escape: string -> string, isHttpUrl: string -> bool)
    requires RebuildAll(p, escape, isHttpUrl).Invalid?
    ensures RebuildAll(p + q, escape, isHttpUrl) == RebuildAll(p, escape, isHttpUrl)
  {
    if q == [] {
      assert p + q == p;
    } else {
      RebuildAllStops(p, q[..|q| - 1], escape, isHttpUrl);
      assert (p + q)[..|p + q| - 1] == p + q[..|q| - 1];
    }
  }

  /** The import loop: validate and rebuild entry by entry, stopping at the first malformed one. */
  method SanitizeWorkspaces(entries: seq<(string, RawWorkspace)>, escape: string -> string, isHttpUrl: string -> bool)
    returns (r: Rebuild)
    ensures r == RebuildAll(entries, escape, isHttpUrl)
  {
    var sanitized: map<string, Workspace> := map[];
    var i := 0;
    while i < |entries|
      invariant 0 <= i <= |entries|
      invariant RebuildAll(entries[..i], escape, isHttpUrl) == Rebuilt(sanitized)
      invariant forall j :: 0 <= j < i ==> WellFormed(entries[j].1)
    {
      var (name, workspace) := entries[i];
      if !WellFormed(workspace) {
        RebuildAllStopsAt(entries, i, escape, isHttpUrl);
        return Invalid(name);
      }
      RebuildAllSnoc(entries, i, escape, isHttpUrl);
      sanitized := sanitized[Sanitize(escape, name) := RebuildWorkspace(workspace, escape, isHttpUrl)];
      i := i + 1;
    }
    assert entries[..i] == entries;
    return Rebuilt(sanitized);
  }

  /** One more well-formed entry adds its rebuilt record under its sanitized name. */
  lemma RebuildAllSnoc(entries: seq<(string, RawWorkspace)>, i: nat, escape: string -> string, isHttpUrl: string -> bool)
    requires i < |entries| && RebuildAll(entries[..i], escape, isHttpUrl).Rebuilt? && WellFormed(entries[i].1)
    ensures RebuildAll(entries[..i + 1], escape, isHttpUrl) ==
      Rebuilt(RebuildAll(entries[..i], escape, isHttpUrl).workspaces[Sanitize(escape, entries[i].0) :=
                RebuildWorkspace(entries[i].1, escape, isHttpUrl)])
  {
    var p := entries[..i + 1];
    assert p[..|p| - 1] == entries[..i];
    assert p[|p| - 1] == entries[i];
  }

  /** The first malformed entry decides the result of the whole rebuild. */
  lemma {:induction false} RebuildAllStopsAt(entries: seq<(string, RawWorkspace)>, i: nat, escape: string -> string,
                                             isHttpUrl: string -> bool)
    requires i < |entries| && !WellFormed(entries[i].1)
    requires forall j :: 0 <= j < i ==> WellFormed(entries[j].1)
    ensures RebuildAll(entries, escape, isHttpUrl) == Invalid(entries[i].0)
  {
    var init := entries[..|entries| - 1];
    if i < |init| {
      RebuildAllStopsAt(init, i, escape, isHttpUrl);
    } else {
      assert RebuildAll(init, escape, isHttpUrl).Rebuilt?;
    }
  }



  /** The imported category names, each sanitized. */
  function SanitizeCategories(categories: seq<string>, escape: string -> string): (r: seq<string>)
    ensures |r| == |categories| && forall i :: 0 <= i < |categories| ==> r[i] == Sanitize(escape, categories[i])
  {
    seq(|categories|, i requires 0 <= i < |categories| => Sanitize(escape, categories[i]))
  }

  /** The names both the import and the stored map hold. */
  function Duplicates(imported: map<string, Workspace>, existing: map<string, Workspace>): (r: set<string>)
    ensures forall n :: n in r <==> n in imported && n in existing
  {
    set n | n in imported && n in existing
  }

  /** The "Skip Duplicates" loop: delete each duplicate name from the imported map. */
  method RemoveNames(imported: map<string, Workspace>, names: set<string>) returns (r: map<string, Workspace>)
    ensures r == imported - names
  {
    r := imported;
    var rest := names;
    while rest != {}
      invariant rest <= names
      invariant r == imported - (names - rest)
      decreases rest
    {
      var n :| n in rest;
      r := r - {n};
      rest := rest - {n};
    }
    assert names - rest == names;
  }

  /** The user's answer when some imported names already exist. */
  datatype Choice = Overwrite | SkipDuplicates | Dismiss

  /** The merged workspace map: `{...existing, ...imported}`, after removing duplicates when skipping them. */
  function MergeWorkspaces(existing: map<string, Workspace>, imported: map<string, Workspace>, choice: Choice)
    : map<string, Workspace>
  {
    if choice == SkipDuplicates then existing + (imported - Duplicates(imported, existing))
    else existing + imported
  }

  /** Overwrite: every name of either map is kept, and an imported record replaces a stored one. */
  lemma OverwriteMerge(existing: map<string, Workspace>, imported: map<string, Workspace>)
    ensures var m := MergeWorkspaces(existing, imported, Overwrite);
      && m.Keys == existing.Keys + imported.Keys
      && (forall n :: n in imported ==> m[n] == imported[n])
      && (forall n :: n in existing && n !in imported ==> m[n] == existing[n])
  {
  }

  /** Skip Duplicates: every stored record is kept unchanged, and only new names are added. */
  lemma SkipMerge(existing: map<string, Workspace>, imported: map<string, Workspace>)
    ensures var m := MergeWorkspaces(existing, imported, SkipDuplicates);
      && m.Keys == existing.Keys + imported.Keys
      && (forall n :: n in existing ==> m[n] == existing[n])
      && (forall n :: n in imported && n !in existing ==> m[n] == imported[n])
  {
  }

  /** Without duplicate names the two answers give the same map. */
  lemma NoDuplicatesSameMerge(existing: map<string, Workspace>, imported: map<string, Workspace>)
    requires Duplicates(imported, existing) == {}
    ensures MergeWorkspaces(existing, imported, SkipDuplicates) == MergeWorkspaces(existing, imported, Overwrite)
  {
    assert imported - Duplicates(imported, existing) == imported;
  }

  /**
   * The merged categories: the stored list followed by the imported names it
   * lacks, each once; a stored list without duplicates is kept as a prefix.
   */
  lemma MergedCategories(existing: seq<string>, imported: seq<string>)
    ensures Dedup(existing + imported) == Dedup(existing) + Dedup(Without(imported, existing))
    ensures NoDuplicates(existing) ==> Dedup(existing + imported) == existing + Dedup(Without(imported, existing))
    ensures NoDuplicates(Dedup(existing + imported))
    ensures forall c :: c in Dedup(existing + imported) <==> c in existing || c in imported
  {
    DedupAppend(existing, imported);
    if NoDuplicates(existing) {
      DedupOfUnique(existing);
    }
    DedupNoDuplicates(existing + imported);
    DedupMembers(existing + imported);
  }

  /**
   * importWorkspaces: a malformed entry refuses the whole import; with
   * duplicate names the user's answer decides; the merged workspaces and
   * categories go through saveData. A failed read, and the save when no
   * name is a duplicate, are inside the try block and caught; the save after
   * the duplicate dialog runs in its button's handler and is not.
   */
  function ImportStep(s: State, size: Store -> nat, entries: seq<(string, RawWorkspace)>, categories: seq<string>,
                      escape: string -> string, isHttpUrl: string -> bool, choice: Choice,
                      wsRead: ReadFaults, catRead: ReadFaults, save: SaveFaults): Step<Outcome>
  {
    match RebuildAll(entries, escape, isHttpUrl)
    case Invalid(name) => Step(s, Refused(InvalidWorkspace(name)))
    case Rebuilt(imported) =>
      match ReadWorkspaces(s, wsRead)
      case Rejected(e) => Step(s, Caught(e))
      case Resolved(existing) =>
        match ReadCategories(s, catRead)
        case Rejected(e) => Step(s, Caught(e))
        case Resolved(existingCategories) =>
          MergeStep(s, size, existing, existingCategories, imported, SanitizeCategories(categories, escape), choice, save)
  }

  /** The part of importWorkspaces after both reads: ask about duplicates, merge, save. */
  function MergeStep(s: State, size: Store -> nat, existing: map<string, Workspace>, existingCategories: seq<string>,
                     imported: map<string, Workspace>, importedCategories: seq<string>, choice: Choice,
                     save: SaveFaults): Step<Outcome>
  {
    if Duplicates(imported, existing) != {} && choice == Dismiss then Step(s, Ignored)
    else
      var merged := MergeWorkspaces(existing, imported, choice);
      var r := SaveData(s, size, Payload(Some(merged), Some(Dedup(existingCategories + importedCategories))), save);
      Step(r.state, if Duplicates(imported, existing) != {} then Unhandled(r.result) else Settle(r.result))
  }

  method ImportWorkspaces(sm: StorageManager, entries: seq<(string, RawWorkspace)>, categories: seq<string>,
                          escape: string -> string, isHttpUrl: string -> bool, choice: Choice,
                          wsRead: ReadFaults, catRead: ReadFaults, save: SaveFaults) returns (r: Outcome)
    requires sm.Valid()
    modifies sm
    ensures sm.Valid()
    ensures Step(sm.State(), r) ==
      ImportStep(old(sm.State()), sm.size, entries, categories, escape, isHttpUrl, choice, wsRead, catRead, save)
  {
    var rebuilt := SanitizeWorkspaces(entries, escape, isHttpUrl);
    if rebuilt.Invalid? {
      return Refused(InvalidWorkspace(rebuilt.name));
    }
    var sanitized := rebuilt.workspaces;
    var sanitizedCategories := SanitizeCategories(categories, escape);
    var gotWorkspaces := sm.GetWorkspaces(wsRead);
    if gotWorkspaces.Rejected? {
      return Caught(gotWorkspaces.error);
    }
    var gotCategories := sm.GetCategories(catRead);
    if gotCategories.Rejected? {
      return Caught(gotCategories.error);
    }
    r := SaveMerged(sm, gotWorkspaces.value, gotCategories.value, sanitized, sanitizedCategories, choice, save);
  }

  method SaveMerged(sm: StorageManager, existing: map<string, Workspace>, existingCategories: seq<string>,
                    imported: map<string, Workspace>, importedCategories: seq<string>, choice: Choice, save: SaveFaults)
    returns (r: Outcome)
    requires sm.Valid()
    modifies sm
    ensures sm.Valid()
    ensures Step(sm.State(), r) ==
      MergeStep(old(sm.State()), sm.size, existing, existingCategories, imported, importedCategories, choice, save)
  {
    var sanitized := imported;
    var duplicateNames := Duplicates(sanitized, existing);
    if duplicateNames != {} && choice == Dismiss {
      return Ignored;
    }
    if duplicateNames != {} && choice == SkipDuplicates {
      sanitized := RemoveNames(sanitized, duplicateNames);
    }
    var merged := existing + sanitized;
    assert merged == MergeWorkspaces(existing, imported, choice);
    var mergedCategories := Dedup(existingCategories + importedCategories);
    var saved := sm.SaveData(Payload(Some(merged), Some(mergedCategories)), save);
    if duplicateNames != {} {
      return Unhandled(saved);
    }
    return Settle(saved);
  }

  /**
   * A failed Local write in saveData leaves the state as it was; it is
   * reported when no imported name is a duplicate and left unhandled when
   * the duplicate dialog's handler made the call.
   */
  lemma MergeRejection(s: State, size: Store -> nat, existing: map<string, Workspace>, existingCategories: seq<string>,
                       imported: map<string, Workspace>, importedCategories: seq<string>, choice: Choice,
                       save: SaveFaults)
    requires save.localSet && choice != Dismiss
    ensures var t := MergeStep(s, size, existing, existingCategories, imported, importedCategories, choice, save);
      && t.state == s
      && (Duplicates(imported, existing) != {} <==> t.result == Uncaught(BackendError))
      && (Duplicates(imported, existing) == {} <==> t.result == Caught(BackendError))
  {
  }

  /** A malformed entry anywhere in the file means nothing is written. */
  lemma MalformedImportWritesNothing(s: State, size: Store -> nat, entries: seq<(string, RawWorkspace)>,
                                     categories: seq<string>, escape: string -> string, isHttpUrl: string -> bool,
                                     choice: Choice, wsRead: ReadFaults, catRead: ReadFaults, save: SaveFaults, i: nat)
    requires i < |entries| && !WellFormed(entries[i].1)
    ensures var t := ImportStep(s, size, entries, categories, escape, isHttpUrl, choice, wsRead, catRead, save);
      t.state == s && t.result.Refused?
  {
  }

  /**
   * With sync off and no failure, Local ends with the merged map, in which
   * every imported record has a consistent tab count and safe tabs, and
   * with the merged category list.
   */
  lemma ImportIntoLocal(s: State, size: Store -> nat, entries: seq<(string, RawWorkspace)>, categories: seq<string>,
                        escape: string -> string, isHttpUrl: string -> bool, choice: Choice)
    requires !s.syncEnabled && choice != Dismiss
    requires forall i :: 0 <= i < |entries| ==> WellFormed(entries[i].1)
    ensures var imported := RebuildAll(entries, escape, isHttpUrl).workspaces;
      var existing := WorkspacesIn(s.local).GetOr(map[]);
      var t := ImportStep(s, size, entries, categories, escape, isHttpUrl, choice,
                          ReadFaults(false, false), ReadFaults(false, false), SaveFaults(false, false, false, false));
      && t.result == Saved(Ok)
      && WorkspacesIn(t.state.local) == Some(MergeWorkspaces(existing, imported, choice))
      && CategoriesIn(t.state.local) ==
           Some(Dedup(CategoriesIn(s.local).GetOr([]) + SanitizeCategories(categories, escape)))
      && (forall n :: n in imported && (choice == Overwrite || n !in existing) ==>
            WorkspacesIn(t.state.local).value[n] == imported[n] && Imported(imported[n], isHttpUrl))
  {
    var imported := RebuildAll(entries, escape, isHttpUrl).workspaces;
    var existing := WorkspacesIn(s.local).GetOr(map[]);
    var data := Payload(Some(MergeWorkspaces(existing, imported, choice)),
                        Some(Dedup(CategoriesIn(s.local).GetOr([]) + SanitizeCategories(categories, escape))));
    ImportSavesMerge(s, size, entries, categories, escape, isHttpUrl, choice);
    PayloadWritten(s.local, data);
    if choice == SkipDuplicates {
      SkipMerge(existing, imported);
    } else {
      OverwriteMerge(existing, imported);
    }
  }

  /** With sync off and no failure, the import's only effect is writing the merged payload into Local. */
  lemma ImportSavesMerge(s: State, size: Store -> nat, entries: seq<(string, RawWorkspace)>, categories: seq<string>,
                         escape: string -> string, isHttpUrl: string -> bool, choice: Choice)
    requires !s.syncEnabled && choice != Dismiss
    requires forall i :: 0 <= i < |entries| ==> WellFormed(entries[i].1)
    ensures var imported := RebuildAll(entries, escape, isHttpUrl).workspaces;
      var existing := WorkspacesIn(s.local).GetOr(map[]);
      var data := Payload(Some(MergeWorkspaces(existing, imported, choice)),
                          Some(Dedup(CategoriesIn(s.local).GetOr([]) + SanitizeCategories(categories, escape))));
      ImportStep(s, size, entries, categories, escape, isHttpUrl, choice,
                 ReadFaults(false, false), ReadFaults(false, false), SaveFaults(false, false, false, false))
        == Step(s.(local := s.local + Fragment(data)), Saved(Ok))
  {
  }
}

=== FILE: sequences.dfy ===
/**
 * Sequence and string operations the extension takes from the JavaScript
 * runtime: `[...new Set(xs)]`, `Array.prototype.filter`, `String.prototype.trim`,
 * `toLowerCase`, `includes` and `startsWith`.
 */
module Sequences {

  predicate NoDuplicates<T(==)>(s: seq<T>) {
    forall i, j :: 0 <= i < j < |s| ==> s[i] != s[j]
  }

  /** `s.filter(p)`: the elements of `s` that satisfy `p`, in their order. */
  function Keep<T(!new)>(s: seq<T>, p: T -> bool): (r: seq<T>)
    ensures |r| <= |s|
    ensures forall x :: x in r <==> x in s && p(x)
  {
    if s == [] then [] else
    Keep(s[..|s| - 1], p) + (if p(s[|s| - 1]) then [s[|s| - 1]] else [])
  }

  /** A list no element of which passes the test is filtered to nothing. */
  lemma {:induction false} KeepNone<T(!new)>(s: seq<T>, p: T -> bool)
    requires forall i :: 0 <= i < |s| ==> !p(s[i])
    ensures Keep(s, p) == []
  {
    if s != [] {
      KeepNone(s[..|s| - 1], p);
    }
  }

  /** Filtering by a test and by its negation splits the list: each element goes to exactly one side. */
  lemma {:induction false} KeepSplit<T(!new)>(s: seq<T>, p: T -> bool, q: T -> bool)
    requires forall x :: q(x) == !p(x)
    ensures multiset(Keep(s, p)) + multiset(Keep(s, q)) == multiset(s)
  {
    if s != [] {
      var init, last := s[..|s| - 1], s[|s| - 1];
      KeepSplit(init, p, q);
      assert s == init + [last];
    }
  }

  /** A one-element list keeps its element exactly when it passes the test. */
  lemma KeepSingleton<T(!new)>(x: T, p: T -> bool)
    ensures Keep([x], p) == if p(x) then [x] else []
  {
    assert [x][..0] == [];
  }

  /** Appending an element to the input appends it to the result when it passes the test. */
  lemma KeepSnoc<T(!new)>(whole: seq<T>, s: seq<T>, x: T, p: T -> bool)
    requires whole == s + [x]
    ensures Keep(whole, p) == Keep(s, p) + (if p(x) then [x] else [])
  {
    assert whole[..|s|] == s;
  }

  /**
   * Filtering a concatenation filters each part and keeps the parts in
   * order; with KeepSingleton this fixes the result, element by element, in
   * the order of the input.
   */
  lemma {:induction false} KeepAppend<T(!new)>(a: seq<T>, b: seq<T>, p: T -> bool)
    ensures Keep(a + b, p) == Keep(a, p) + Keep(b, p)
  {
    if b == [] {
      assert a + b == a;
    } else {
      var init, last := b[..|b| - 1], b[|b| - 1];
      var tail := if p(last) then [last] else [];
      var front, mid := Keep(a, p), Keep(init, p);
      assert b == init + [last];
      assert a + b == (a + init) + [last];
      KeepSnoc(a + b, a + init, last, p);
      KeepSnoc(b, init, last, p);
      KeepAppend(a, init, p);
      assert (front + mid) + tail == front + (mid + tail);
    }
  }

  /** A list whose every element passes the test is kept whole. */
  lemma {:induction false} KeepAll<T(!new)>(s: seq<T>, p: T -> bool)
    requires forall i :: 0 <= i < |s| ==> p(s[i])
    ensures Keep(s, p) == s
  {
    if s != [] {
      KeepAll(s[..|s| - 1], p);
    }
  }

  /**
   * `[...new Set(s)]`: a Set is filled in iteration order and ignores an
   * element it already holds, so each element is kept at its first occurrence.
   */
  function Dedup<T(==)>(s: seq<T>): seq<T> {
    if s == [] then [] else
    var d := Dedup(s[..|s| - 1]);
    if s[|s| - 1] in d then d else d + [s[|s| - 1]]
  }

  /** De-duplication neither loses nor invents elements. */
  lemma {:induction false} DedupMembers<T(!new)>(s: seq<T>)
    ensures forall x :: x in Dedup(s) <==> x in s
  {
    if s != [] {
      DedupMembers(s[..|s| - 1]);
      assert s == s[..|s| - 1] + [s[|s| - 1]];
    }
  }

  /** The result of de-duplication holds every element once. */
  lemma {:induction false} DedupNoDuplicates<T>(s: seq<T>)
    ensures NoDuplicates(Dedup(s))
  {
    if s != [] {
      DedupNoDuplicates(s[..|s| - 1]);
    }
  }

  /** A list that already has no duplicates is left exactly as it is. */
  lemma {:induction false} DedupOfUnique<T>(s: seq<T>)
    requires NoDuplicates(s)
    ensures Dedup(s) == s
  {
    if s != [] {
      var init := s[..|s| - 1];
      DedupOfUnique(init);
      DedupMembersOne(init, s[|s| - 1]);
      assert s == init + [s[|s| - 1]];
    }
  }

  lemma {:induction false} DedupMembersOne<T>(s: seq<T>, x: T)
    ensures x in Dedup(s) <==> x in s
  {
    if s != [] {
      DedupMembersOne(s[..|s| - 1], x);
      assert s == s[..|s| - 1] + [s[|s| - 1]];
    }
  }

  /** The elements of `b` that `a` does not hold, in their order. */
  function Without<T(==)>(b: seq<T>, a: seq<T>): (r: seq<T>)
    ensures forall x :: x in r ==> x in b && x !in a
  {
    if b == [] then [] else
    Without(b[..|b| - 1], a) + (if b[|b| - 1] in a then [] else [b[|b| - 1]])
  }

  /** One step of de-duplication: appending an element keeps it only if it is new. */
  lemma DedupSnoc<T>(s: seq<T>, x: T)
    ensures Dedup(s + [x]) == if x in Dedup(s) then Dedup(s) else Dedup(s) + [x]
  {
    assert (s + [x])[..|s + [x]| - 1] == s;
  }

  /**
   * De-duplicating a concatenation keeps the de-duplicated first list and
   * appends, in first-occurrence order, only the elements of the second list
   * that the first does not hold.
   */
  lemma {:induction false} DedupAppend<T>(a: seq<T>, b: seq<T>)
    ensures Dedup(a + b) == Dedup(a) + Dedup(Without(b, a))
  {
    if b == [] {
      assert a + b == a;
    } else {
      var init, last := b[..|b| - 1], b[|b| - 1];
      DedupAppend(a, init);
      assert a + b == (a + init) + [last];
      DedupAppendStep(a, init, last);
    }
  }

  lemma DedupAppendStep<T>(a: seq<T>, init: seq<T>, last: T)
    requires Dedup(a + init) == Dedup(a) + Dedup(Without(init, a))
    ensures Dedup((a + init) + [last]) == Dedup(a) + Dedup(Without(init + [last], a))
  {
    if last in Dedup(a + init) {
      DedupAppendOld(a, init, last);
    } else {
      DedupAppendNew(a, init, last);
    }
  }

  /** The appended element was already there: neither side changes. */
  lemma DedupAppendOld<T>(a: seq<T>, init: seq<T>, last: T)
    requires Dedup(a + init) == Dedup(a) + Dedup(Without(init, a))
    requires last in Dedup(a + init)
    ensures Dedup((a + init) + [last]) == Dedup(a) + Dedup(Without(init + [last], a))
  {
    var w := Without(init, a);
    DedupSnoc(a + init, last);
    WithoutSnoc(init, last, a);
    DedupMembersOne(a, last);
    if last in a {
      assert w + [] == w;
    } else {
      DedupMembersOne(w, last);
      DedupSnoc(w, last);
    }
  }

  /** The appended element is new: both sides gain it at the end. */
  lemma DedupAppendNew<T>(a: seq<T>, init: seq<T>, last: T)
    requires Dedup(a + init) == Dedup(a) + Dedup(Without(init, a))
    requires last !in Dedup(a + init)
    ensures Dedup((a + init) + [last]) == Dedup(a) + Dedup(Without(init + [last], a))
  {
    var w := Without(init, a);
    assert Dedup((a + init) + [last]) == (Dedup(a) + Dedup(w)) + [last] by {
      DedupSnoc(a + init, last);
    }
    assert Without(init + [last], a) == w + [last] by {
      DedupMembersOne(a, last);
      WithoutSnoc(init, last, a);
    }
    assert Dedup(Without(init + [last], a)) == Dedup(w) + [last] by {
      DedupMembersOne(w, last);
      DedupSnoc(w, last);
    }
    SnocRegroup(Dedup((a + init) + [last]), Dedup(a), Dedup(w), Dedup(Without(init + [last], a)), last);
  }

  /** `(p + q) + [x]` regrouped as `p + (q + [x])`. */
  lemma SnocRegroup<T>(whole: seq<T>, p: seq<T>, q: seq<T>, q': seq<T>, x: T)
    requires whole == (p + q) + [x] && q' == q + [x]
    ensures whole == p + q'
  {
  }

  lemma WithoutSnoc<T>(init: seq<T>, last: T, a: seq<T>)
    ensures Without(init + [last], a) == Without(init, a) + (if last in a then [] else [last])
  {
    assert (init + [last])[..|init + [last]| - 1] == init;
  }

  /** Every character `String.prototype.trim` removes: WhiteSpace and LineTerminator. */
  predicate IsJsWhitespace(c: char) {
    || c == '\t' || c == '\n' || c == '\U{000B}' || c == '\U{000C}' || c == '\r'
    || c == ' ' || c == '\U{00A0}' || c == '\U{1680}'
    || ('\U{2000}' <= c <= '\U{200A}')
    || c == '\U{2028}' || c == '\U{2029}' || c == '\U{202F}' || c == '\U{205F}'
    || c == '\U{3000}' || c == '\U{FEFF}'
  }

  function TrimStart(s: string): (r: string)
    ensures |r| <= |s| && r == s[|s| - |r|..]
    ensures r == "" || !IsJsWhitespace(r[0])
    ensures forall i :: 0 <= i < |s| - |r| ==> IsJsWhitespace(s[i])
  {
    if s != "" && IsJsWhitespace(s[0]) then
      var r := TrimStart(s[1..]);
      assert forall i :: 1 <= i < |s| ==> s[i] == s[1..][i - 1];
      r
    else s
  }

  function TrimEnd(s: string): (r: string)
    ensures |r| <= |s| && r == s[..|r|]
    ensures r == "" || !IsJsWhitespace(r[|r| - 1])
    ensures forall i :: |r| <= i < |s| ==> IsJsWhitespace(s[i])
  {
    if s != "" && IsJsWhitespace(s[|s| - 1]) then
      var r := TrimEnd(s[..|s| - 1]);
      assert forall i :: 0 <= i < |s| - 1 ==> s[i] == s[..|s| - 1][i];
      r
    else s
  }

  /**
   * `s.trim()`: the slice of `s` left after removing the whitespace at both
   * ends. The slice starts at `k`, neither starts nor ends with whitespace,
   * and everything of `s` outside it is whitespace.
   */
  function Trim(s: string): (r: string)
    ensures r == "" || (!IsJsWhitespace(r[0]) && !IsJsWhitespace(r[|r| - 1]))
    ensures var k := |s| - |TrimStart(s)|;
      && k + |r| <= |s| && r == s[k..k + |r|]
      && (forall i :: 0 <= i < k ==> IsJsWhitespace(s[i]))
      && (forall i :: k + |r| <= i < |s| ==> IsJsWhitespace(s[i]))
  {
    var t := TrimStart(s);
    var r := TrimEnd(t);
    TrimSlice(s, t, r);
    r
  }

  /**
   * A prefix `r` of a suffix `t` of `s`, followed in `t` by whitespace only,
   * is a slice of `s` followed in `s` by whitespace only.
   */
  lemma TrimSlice(s: string, t: string, r: string)
    requires |t| <= |s| && t == s[|s| - |t|..]
    requires |r| <= |t| && r == t[..|r|] && forall j :: |r| <= j < |t| ==> IsJsWhitespace(t[j])
    ensures r == s[|s| - |t|..|s| - |t| + |r|]
    ensures forall i :: |s| - |t| + |r| <= i < |s| ==> IsJsWhitespace(s[i])
  {
    var k := |s| - |t|;
    PrefixOfSuffix(s, k, t, r);
    WhitespaceSuffix(s, k, t, |r|);
  }

  /** A prefix of the suffix of `s` from `k` is the slice of `s` from `k`. */
  lemma PrefixOfSuffix<T>(s: seq<T>, k: nat, t: seq<T>, r: seq<T>)
    requires k <= |s| && t == s[k..] && |r| <= |t| && r == t[..|r|]
    ensures r == s[k..k + |r|]
  {
    assert forall i :: 0 <= i < |r| ==> r[i] == s[k + i];
  }

  /** Whitespace at the end of a suffix of `s` is whitespace at the end of `s`. */
  lemma WhitespaceSuffix(s: string, k: nat, t: string, m: nat)
    requires k <= |s| && t == s[k..] && m <= |t|
    requires forall j :: m <= j < |t| ==> IsJsWhitespace(t[j])
    ensures forall i :: k + m <= i < |s| ==> IsJsWhitespace(s[i])
  {
    forall i | k + m <= i < |s|
      ensures IsJsWhitespace(s[i])
    {
      assert s[i] == t[i - k];
    }
  }

  /** A string trims to nothing exactly when it consists of whitespace only. */
  lemma TrimEmpty(s: string)
    ensures Trim(s) == "" <==> forall i :: 0 <= i < |s| ==> IsJsWhitespace(s[i])
  {
    var t := TrimStart(s);
    if t != "" {
      assert !IsJsWhitespace(t[0]);
      assert s[|s| - |t|] == t[0];
    }
  }

  /** `toLowerCase` on the ASCII letters. */
  function LowerChar(c: char): char {
    if 'A' <= c <= 'Z' then (c as int - 'A' as int + 'a' as int) as char else c
  }

  function Lower(s: string): (r: string)
    ensures |r| == |s| && forall i :: 0 <= i < |s| ==> r[i] == LowerChar(s[i])
  {
    seq(|s|, i requires 0 <= i < |s| => LowerChar(s[i]))
  }

  /** Lower-casing twice is lower-casing once. */
  lemma LowerIdempotent(s: string)
    ensures Lower(Lower(s)) == Lower(s)
  {
  }

  /** Lower-casing neither creates nor removes whitespace. */
  lemma LowerCharWhitespace(c: char)
    ensures IsJsWhitespace(LowerChar(c)) <==> IsJsWhitespace(c)
  {
  }

  lemma {:induction false} LowerTrimStart(s: string)
    ensures TrimStart(Lower(s)) == Lower(TrimStart(s))
  {
    if s != "" {
      LowerCharWhitespace(s[0]);
      if IsJsWhitespace(s[0]) {
        assert Lower(s)[1..] == Lower(s[1..]);
        LowerTrimStart(s[1..]);
      }
    }
  }

  lemma {:induction false} LowerTrimEnd(s: string)
    ensures TrimEnd(Lower(s)) == Lower(TrimEnd(s))
  {
    if s != "" {
      LowerCharWhitespace(s[|s| - 1]);
      if IsJsWhitespace(s[|s| - 1]) {
        assert Lower(s)[..|s| - 1] == Lower(s[..|s| - 1]);
        LowerTrimEnd(s[..|s| - 1]);
      }
    }
  }

  /** `s.trim().toLowerCase()` equals `s.toLowerCase().trim()`. */
  lemma LowerTrim(s: string)
    ensures Trim(Lower(s)) == Lower(Trim(s))
  {
    LowerTrimStart(s);
    LowerTrimEnd(TrimStart(s));
  }

  /** `hay.includes(needle)`. */
  predicate Contains(hay: string, needle: string) {
    exists i :: 0 <= i <= |hay| && StartsWith(hay[i..], needle)
  }

  /** `s.startsWith(prefix)`. */
  predicate StartsWith(s: string, prefix: string) {
    |prefix| <= |s| && s[..|prefix|] == prefix
  }
}

=== FILE: storage_manager.dfy ===
/**
 * The StorageManager object: two storage areas changed in place through
 * get/set/remove wrappers and a cached `syncEnabled` flag. Each asynchronous
 * method is one atomic step here; its backend calls fail as its fault record
 * says, and its final state and result are those the matching function of
 * SyncPolicy gives.
 */
module Storage {
  import opened Values
  import opened SyncPolicy

  class StorageManager {
    var local: Store
    var sync: Store
    var syncEnabled: bool
    /** calculateDataSize: the UTF-8 byte length of the JSON text of an object. */
    const size: Store -> nat

    ghost predicate Valid()
      reads this
    {
      SyncPolicy.Valid(State())
    }

    function State(): State
      reads this
    {
      SyncPolicy.State(local, sync, syncEnabled)
    }

    /** The constructor leaves the flag false; initSyncStatus loads it. */
    constructor (local0: Store, sync0: Store, size: Store -> nat)
      requires WellTyped(local0) && WellTyped(sync0)
      ensures Valid() && State() == SyncPolicy.State(local0, sync0, false) && this.size == size
    {
      local, sync, syncEnabled := local0, sync0, false;
      this.size := size;
    }

    // The backend wrappers. A failing call changes nothing and rejects.

    method GetLocal(keys: set<string>, fails: bool) returns (r: Settled<Store>)
      ensures r == if fails then Rejected(BackendError) else Resolved(Restrict(local, keys))
    {
      if fails { return Rejected(BackendError); }
      return Resolved(Restrict(local, keys));
    }

    method SetLocal(entries: Store, fails: bool) returns (r: Settled<()>)
      modifies this`local
      ensures local == if fails then old(local) else old(local) + entries
      ensures r == if fails then Rejected(BackendError) else Resolved(())
    {
      if fails { return Rejected(BackendError); }
      local := local + entries;
      return Resolved(());
    }

    method RemoveLocal(keys: set<string>, fails: bool) returns (r: Settled<()>)
      modifies this`local
      ensures local == if fails then old(local) else old(local) - keys
      ensures r == if fails then Rejected(BackendError) else Resolved(())
    {
      if fails { return Rejected(BackendError); }
      local := local - keys;
      return Resolved(());
    }

    method GetSync(keys: set<string>, fails: bool) returns (r: Settled<Store>)
      ensures r == if fails then Rejected(BackendError) else Resolved(Restrict(sync, keys))
    {
      if fails { return Rejected(BackendError); }
      return Resolved(Restrict(sync, keys));
    }

    method SetSync(entries: Store, fails: bool) returns (r: Settled<()>)
      modifies this`sync
      ensures sync == if fails then old(sync) else old(sync) + entries
      ensures r == if fails then Rejected(BackendError) else Resolved(())
    {
      if fails { return Rejected(BackendError); }
      sync := sync + entries;
      return Resolved(());
    }

    method RemoveSync(keys: set<string>, fails: bool) returns (r: Settled<()>)
      modifies this`sync
      ensures sync == if fails then old(sync) else old(sync) - keys
      ensures r == if fails then Rejected(BackendError) else Resolved(())
    {
      if fails { return Rejected(BackendError); }
      sync := sync - keys;
      return Resolved(());
    }

    // The sync flag.

    method InitSyncStatus(localGetFails: bool)
      requires Valid()
      modifies this`syncEnabled
      ensures Valid() && State() == SyncPolicy.InitSyncStatus(old(State()), localGetFails)
    {
      var got := GetLocal({SyncEnabledKey}, localGetFails);
      if got.Resolved? {
        syncEnabled := PersistedFlag(got.value);
      } else {
        syncEnabled := false;
      }
    }

    method SetSyncStatus(enabled: bool, flagSetFails: bool, push: PushFaults) returns (r: Settled<()>)
      requires Valid()
      modifies this
      ensures Valid()
      ensures Step(State(), r) == SyncPolicy.SetSyncStatus(old(State()), size, enabled, flagSetFails, push)
    {
      syncEnabled := enabled;
      var written := SetLocal(map[SyncEnabledKey := Flag(enabled)], flagSetFails);
      if written.Rejected? {
        return written;
      }
      if enabled {
        var pushed := PushLocalToSync(push);
        if pushed.Rejected? {
          return Rejected(pushed.error);
        }
      }
      return Resolved(());
    }

    /** getSyncStatus answers from the cached flag; it never reads storage. */
    method GetSyncStatus() returns (enabled: bool)
      ensures enabled == syncEnabled
    {
      return syncEnabled;
    }

    // Preferences.

    method SetUIMode(mode: string, f: WriteFaults) returns (r: Settled<()>)
      requires Valid()
      modifies this
      ensures Valid()
      ensures Step(State(), r) == SetPreference(old(State()), UIModeKey, mode, f)
    {
      r := SetPreferenceEntry(UIModeKey, mode, f);
    }

    method SetTheme(theme: string, f: WriteFaults) returns (r: Settled<()>)
      requires Valid()
      modifies this
      ensures Valid()
      ensures Step(State(), r) == SetPreference(old(State()), ThemeKey, theme, f)
    {
      r := SetPreferenceEntry(ThemeKey, theme, f);
    }

    /** The body setUIMode and setTheme share: Local always, Sync best-effort. */
    method SetPreferenceEntry(key: string, value: string, f: WriteFaults) returns (r: Settled<()>)
      requires Valid() && (key == UIModeKey || key == ThemeKey)
      modifies this
      ensures Valid()
      ensures Step(State(), r) == SetPreference(old(State()), key, value, f)
    {
      var written := SetLocal(map[key := Text(value)], f.local);
      if written.Rejected? {
        return written;
      }
      if syncEnabled {
        var _ := SetSync(map[key := Text(value)], f.sync);
      }
      return Resolved(());
    }

    method GetUIMode(f: ReadFaults) returns (r: Settled<string>)
      requires Valid()
      ensures r == ReadUIMode(State(), f)
    {
      if syncEnabled {
        var got := GetSync({UIModeKey}, f.syncGet);
        if got.Resolved? && UIModeIn(got.value).Some? {
          return Resolved(UIModeIn(got.value).value);
        }
      }
      var got := GetLocal({UIModeKey}, f.localGet);
      if got.Rejected? {
        return Rejected(got.error);
      }
      return Resolved(UIModeIn(got.value).GetOr("basic"));
    }

    method GetTheme(f: ReadFaults) returns (r: Settled<string>)
      requires Valid()
      ensures r == ReadTheme(State(), f)
    {
      if syncEnabled {
        var got := GetSync({ThemeKey}, f.syncGet);
        if got.Resolved? && ThemeIn(got.value).Some? {
          return Resolved(ThemeIn(got.value).value);
        }
      }
      var got := GetLocal({ThemeKey}, f.localGet);
      if got.Rejected? {
        return Rejected(got.error);
      }
      return Resolved(ThemeIn(got.value).GetOr("light"));
    }

    // Bulk transfer.

    /** The shared catch block: sync off in memory first, then persisted. */
    method DisableSyncFlag(flagSetFails: bool) returns (r: Settled<()>)
      requires Valid()
      modifies this
      ensures Valid()
      ensures Step(State(), r) == DisableSync(old(State()), flagSetFails)
    {
      syncEnabled := false;
      r := SetLocal(map[SyncEnabledKey := Flag(false)], flagSetFails);
    }

    method PushLocalToSync(f: PushFaults) returns (r: Settled<Reply>)
      requires Valid()
      modifies this
      ensures Valid()
      ensures Step(State(), r) == Push(old(State()), size, f)
    {
      var error := BackendError;
      var got := GetLocal(CollectionKeys, f.localGet);
      if got.Resolved? {
        var data := got.value;
        if size(data) > MaxSyncBytes {
          error := QuotaExceeded(size(data));
        } else {
          var put := SetSync(data, f.syncSet);
          if put.Resolved? {
            return Resolved(Ok);
          }
        }
      }
      var disabled := DisableSyncFlag(f.flagSet);
      if disabled.Rejected? {
        return Rejected(disabled.error);
      }
      return Resolved(Failed(error));
    }

    method PullSyncToLocal(f: PullFaults) returns (r: Reply)
      requires Valid()
      modifies this`local
      ensures Valid()
      ensures Step(State(), r) == Pull(old(State()), f)
    {
      var got := GetSync(CollectionKeys, f.syncGet);
      if got.Rejected? {
        return Failed(got.error);
      }
      var data := got.value;
      if !Present(data, WorkspacesKey) && !Present(data, CategoriesKey) {
        return NothingToPull;
      }
      var written := SetLocal(data, f.localSet);
      if written.Rejected? {
        return Failed(written.error);
      }
      return Ok;
    }

    // Collections.

    method SaveData(data: Payload, f: SaveFaults) returns (r: Settled<Reply>)
      requires Valid()
      modifies this
      ensures Valid()
      ensures Step(State(), r) == SyncPolicy.SaveData(old(State()), size, data, f)
    {
      var written := SetLocal(Fragment(data), f.localSet);
      if written.Rejected? {
        return Rejected(written.error);
      }
      if !syncEnabled {
        return Resolved(Ok);
      }
      var error := BackendError;
      var got := GetSync(CollectionKeys, f.syncGet);
      if got.Resolved? {
        var toSync := Fragment(ToSync(PayloadIn(got.value), data));
        if size(toSync) > MaxSyncBytes {
          error := QuotaExceeded(size(toSync));
        } else {
          var put := SetSync(toSync, f.syncSet);
          if put.Resolved? {
            return Resolved(Ok);
          }
        }
      }
      var disabled := DisableSyncFlag(f.flagSet);
      if disabled.Rejected? {
        return Rejected(disabled.error);
      }
      return Resolved(SyncDisabled(error));
    }

    method DeleteData(keys: set<string>, f: WriteFaults) returns (r: Settled<()>)
      requires Valid()
      modifies this
      ensures Valid()
      ensures Step(State(), r) == SyncPolicy.DeleteData(old(State()), keys, f)
    {
      var removed := RemoveLocal(keys, f.local);
      if removed.Rejected? {
        return removed;
      }
      if syncEnabled {
        var _ := RemoveSync(keys, f.sync);
      }
      return Resolved(());
    }

    method GetWorkspaces(f: ReadFaults) returns (r: Settled<map<string, Workspace>>)
      requires Valid()
      ensures r == ReadWorkspaces(State(), f)
    {
      if syncEnabled {
        var got := GetSync({WorkspacesKey}, f.syncGet);
        if got.Resolved? && WorkspacesIn(got.value).Some? {
          return Resolved(WorkspacesIn(got.value).value);
        }
      }
      var got := GetLocal({WorkspacesKey}, f.localGet);
      if got.Rejected? {
        return Rejected(got.error);
      }
      return Resolved(WorkspacesIn(got.value).GetOr(map[]));
    }

    method GetCategories(f: ReadFaults) returns (r: Settled<seq<string>>)
      requires Valid()
      ensures r == ReadCategories(State(), f)
    {
      if syncEnabled {
        var got := GetSync({CategoriesKey}, f.syncGet);
        if got.Resolved? && CategoriesIn(got.value).Some? {
          return Resolved(CategoriesIn(got.value).value);
        }
      }
      var got := GetLocal({CategoriesKey}, f.localGet);
      if got.Rejected? {
        return Rejected(got.error);
      }
      return Resolved(CategoriesIn(got.value).GetOr([]));
    }
  }
}

=== FILE: sync_policy.dfy ===
/**
 * The sync policy of the storage manager as pure state transitions. The
 * state is the pair of storage areas (Local and Sync) and the cached
 * `syncEnabled` flag. Every backend call an operation makes can fail; which
 * ones do is given by a fault record, so each operation is a function of the
 * old state, its arguments and the faults. The class in storage_manager.dfy
 * performs the same steps imperatively and is proved to end in the state and
 * result these functions give.
 */
module SyncPolicy {
  import opened Values
  import opened Sequences

  /** The client-side ceiling on what saveData and pushLocalToSync write to Sync: 100 KB. */
  const MaxSyncBytes: nat := 102400

  datatype State = State(local: Store, sync: Store, syncEnabled: bool)

  /** The state an operation ends in and the result it settles with. */
  datatype Step<+T> = Step(state: State, result: T)

  /** Which backend calls fail, for each operation. */
  datatype ReadFaults = ReadFaults(syncGet: bool, localGet: bool)
  datatype SaveFaults = SaveFaults(localSet: bool, syncGet: bool, syncSet: bool, flagSet: bool)
  datatype PushFaults = PushFaults(localGet: bool, syncSet: bool, flagSet: bool)
  datatype PullFaults = PullFaults(syncGet: bool, localSet: bool)
  datatype WriteFaults = WriteFaults(local: bool, sync: bool)

  /** Both areas hold values of the expected kind under the extension's keys. */
  predicate Valid(s: State) {
    WellTyped(s.local) && WellTyped(s.sync)
  }

  /** The cached flag agrees with the copy persisted in Local. */
  predicate FlagPersisted(s: State) {
    s.syncEnabled == PersistedFlag(s.local)
  }

  /** The keys that hold the synchronised collections. */
  const CollectionKeys: set<string> := {WorkspacesKey, CategoriesKey}

  /** `store.key` is present and truthy. */
  predicate Present(store: Store, key: string) {
    key in store && Truthy(store[key])
  }

  /** initSyncStatus: the flag is the stored one or false, and false when the read fails. */
  function InitSyncStatus(s: State, localGetFails: bool): State {
    if localGetFails then s.(syncEnabled := false)
    else s.(syncEnabled := PersistedFlag(Restrict(s.local, {SyncEnabledKey})))
  }

  /** The catch blocks of push and saveData: switch sync off in memory, then persist it. */
  function DisableSync(s: State, flagSetFails: bool): Step<Settled<()>> {
    var off := s.(syncEnabled := false);
    if flagSetFails then Step(off, Rejected(BackendError))
    else Step(off.(local := off.local + map[SyncEnabledKey := Flag(false)]), Resolved(()))
  }

  /** Sync is disabled after a failed push; the reply carries no syncDisabled field. */
  function PushFailed(s: State, e: Error, flagSetFails: bool): Step<Settled<Reply>> {
    var d := DisableSync(s, flagSetFails);
    Step(d.state, if d.result.Rejected? then Rejected(d.result.error) else Resolved(Failed(e)))
  }

  /** pushLocalToSync: copy Local's workspaces and categories to Sync if they fit. */
  function Push(s: State, size: Store -> nat, f: PushFaults): Step<Settled<Reply>> {
    if f.localGet then PushFailed(s, BackendError, f.flagSet)
    else
      var data := Restrict(s.local, CollectionKeys);
      if size(data) > MaxSyncBytes then PushFailed(s, QuotaExceeded(size(data)), f.flagSet)
      else if f.syncSet then PushFailed(s, BackendError, f.flagSet)
      else Step(s.(sync := s.sync + data), Resolved(Ok))
  }

  /** pullSyncToLocal: overwrite Local's collections with those Sync holds. */
  function Pull(s: State, f: PullFaults): Step<Reply> {
    if f.syncGet then Step(s, Failed(BackendError))
    else
      var data := Restrict(s.sync, CollectionKeys);
      if !Present(data, WorkspacesKey) && !Present(data, CategoriesKey) then Step(s, NothingToPull)
      else if f.localSet then Step(s, Failed(BackendError))
      else Step(s.(local := s.local + data), Ok)
  }

  /** setSyncStatus: cache and persist the flag; turning sync on pushes, and the push result is dropped. */
  function SetSyncStatus(s: State, size: Store -> nat, enabled: bool, flagSetFails: bool, push: PushFaults)
    : Step<Settled<()>>
  {
    var s1 := s.(syncEnabled := enabled);
    if flagSetFails then Step(s1, Rejected(BackendError))
    else
      var s2 := s1.(local := s1.local + map[SyncEnabledKey := Flag(enabled)]);
      if !enabled then Step(s2, Resolved(()))
      else
        var p := Push(s2, size, push);
        Step(p.state, if p.result.Rejected? then Rejected(p.result.error) else Resolved(()))
  }

  /**
   * The merge saveData writes to Sync: workspaces are the Sync map overridden
   * by the given one; categories are the Sync list followed by the given list,
   * de-duplicated. Only the collections present in `data` are produced.
   */
  function ToSync(current: Payload, data: Payload): Payload {
    Payload(
      if data.workspaces.Some? then Some(current.workspaces.GetOr(map[]) + data.workspaces.value) else None,
      if data.categories.Some? then Some(Dedup(current.categories.GetOr([]) + data.categories.value)) else None)
  }

  /** A failed Sync write in saveData: sync is disabled and the reply says so. */
  function SaveFailed(s: State, e: Error, flagSetFails: bool): Step<Settled<Reply>> {
    var d := DisableSync(s, flagSetFails);
    Step(d.state, if d.result.Rejected? then Rejected(d.result.error) else Resolved(SyncDisabled(e)))
  }

  /** saveData: write Local first; with sync on, merge into Sync within the size ceiling. */
  function SaveData(s: State, size: Store -> nat, data: Payload, f: SaveFaults): Step<Settled<Reply>> {
    if f.localSet then Step(s, Rejected(BackendError))
    else
      var s1 := s.(local := s.local + Fragment(data));
      if !s.syncEnabled then Step(s1, Resolved(Ok))
      else if f.syncGet then SaveFailed(s1, BackendError, f.flagSet)
      else
        var out := Fragment(ToSync(PayloadIn(Restrict(s.sync, CollectionKeys)), data));
        if size(out) > MaxSyncBytes then SaveFailed(s1, QuotaExceeded(size(out)), f.flagSet)
        else if f.syncSet then SaveFailed(s1, BackendError, f.flagSet)
        else Step(s1.(sync := s1.sync + out), Resolved(Ok))
  }

  /** deleteData: remove keys from Local; from Sync too when enabled, swallowing a Sync failure. */
  function DeleteData(s: State, keys: set<string>, f: WriteFaults): Step<Settled<()>> {
    if f.local then Step(s, Rejected(BackendError))
    else
      var s1 := s.(local := s.local - keys);
      Step(if s.syncEnabled && !f.sync then s1.(sync := s1.sync - keys) else s1, Resolved(()))
  }

  /** setUIMode and setTheme: write Local; Sync too when enabled, swallowing a Sync failure. */
  function SetPreference(s: State, key: string, value: string, f: WriteFaults): Step<Settled<()>> {
    if f.local then Step(s, Rejected(BackendError))
    else
      var entry := map[key := Text(value)];
      var s1 := s.(local := s.local + entry);
      Step(if s.syncEnabled && !f.sync then s1.(sync := s1.sync + entry) else s1, Resolved(()))
  }

  function UIModeIn(store: Store): Option<string> {
    TextIn(store, UIModeKey)
  }

  function ThemeIn(store: Store): Option<string> {
    TextIn(store, ThemeKey)
  }

  /**
   * The read pattern of getWorkspaces, getCategories, getUIMode and getTheme:
   * a truthy Sync value when sync is on and the Sync read works, otherwise the
   * truthy Local value, otherwise the default. `extract` yields a value only
   * when it is present and truthy. Reads change no state.
   */
  function ReadSyncFirst<T>(s: State, extract: Store -> Option<T>, default: T, f: ReadFaults): Settled<T> {
    if s.syncEnabled && !f.syncGet && extract(s.sync).Some? then Resolved(extract(s.sync).value)
    else if f.localGet then Rejected(BackendError)
    else Resolved(extract(s.local).GetOr(default))
  }

  function ReadWorkspaces(s: State, f: ReadFaults): Settled<map<string, Workspace>> {
    ReadSyncFirst(s, WorkspacesIn, map[], f)
  }

  function ReadCategories(s: State, f: ReadFaults): Settled<seq<string>> {
    ReadSyncFirst(s, CategoriesIn, [], f)
  }

  function ReadUIMode(s: State, f: ReadFaults): Settled<string> {
    ReadSyncFirst(s, UIModeIn, "basic", f)
  }

  function ReadTheme(s: State, f: ReadFaults): Settled<string> {
    ReadSyncFirst(s, ThemeIn, "light", f)
  }
}

=== FILE: sync_properties.dfy ===
/**
 * What the storage manager promises, proved about the transitions of
 * SyncPolicy: Local is written first, Sync receives a merge, any Sync
 * failure switches sync off and persists that, pulling overwrites Local,
 * reads prefer Sync and fall back to Local and then to a default, and every
 * operation that completes keeps the cached flag equal to the persisted one.
 */
module SyncProperties {
  import opened Values
  import opened Sequences
  import opened SyncPolicy

  /** The entries saveData writes to Sync when sync is on. */
  function SyncOut(s: State, data: Payload): Store {
    Fragment(ToSync(PayloadIn(Restrict(s.sync, CollectionKeys)), data))
  }

  /** Whether the Sync half of saveData goes through: the read, the size check and the write. */
  predicate SyncWriteSucceeds(s: State, size: Store -> nat, data: Payload, f: SaveFaults) {
    !f.syncGet && size(SyncOut(s, data)) <= MaxSyncBytes && !f.syncSet
  }

  // ---------------------------------------------------------------- saveData

  /**
   * saveData writes the caller's data to Local before anything else: if that
   * write fails nothing changes and the call rejects; otherwise Local holds
   * the data whatever happens to Sync afterwards (at most the flag is added).
   */
  lemma SaveDataWritesLocalFirst(s: State, size: Store -> nat, data: Payload, f: SaveFaults)
    ensures f.localSet ==> SaveData(s, size, data, f) == Step(s, Rejected(BackendError))
    ensures !f.localSet ==>
      var t := SaveData(s, size, data, f).state;
      || t.local == s.local + Fragment(data)
      || t.local == s.local + Fragment(data) + map[SyncEnabledKey := Flag(false)]
    ensures !f.localSet ==> forall k :: k in Fragment(data) ==>
      k in SaveData(s, size, data, f).state.local && SaveData(s, size, data, f).state.local[k] == Fragment(data)[k]
  {
  }

  /** With sync off, saveData only writes Local and succeeds; Sync and the flag are untouched. */
  lemma SaveDataWithSyncOff(s: State, size: Store -> nat, data: Payload, f: SaveFaults)
    requires !s.syncEnabled && !f.localSet
    ensures SaveData(s, size, data, f) == Step(s.(local := s.local + Fragment(data)), Resolved(Ok))
  {
  }

  /**
   * With sync on, saveData succeeds exactly when the Sync read, the size check
   * and the Sync write all go through; then Sync receives the merge and the
   * flag stays on.
   */
  lemma SaveDataSucceedsIff(s: State, size: Store -> nat, data: Payload, f: SaveFaults)
    requires s.syncEnabled && !f.localSet
    ensures SaveData(s, size, data, f).result == Resolved(Ok) <==> SyncWriteSucceeds(s, size, data, f)
    ensures SyncWriteSucceeds(s, size, data, f) ==>
      SaveData(s, size, data, f).state == State(s.local + Fragment(data), s.sync + SyncOut(s, data), true)
  {
  }

  /**
   * Auto-disable: with sync on, a failed Sync read, an oversized payload or a
   * failed Sync write switches sync off in memory and persists
   * `syncEnabled: false`; the reply carries `syncDisabled: true`, Sync is
   * unchanged and Local still holds the caller's data. Only a failure of the
   * flag write itself makes the call reject.
   */
  lemma SaveDataAutoDisables(s: State, size: Store -> nat, data: Payload, f: SaveFaults)
    requires s.syncEnabled && !f.localSet && !SyncWriteSucceeds(s, size, data, f)
    ensures var e := if f.syncGet || size(SyncOut(s, data)) <= MaxSyncBytes
                     then BackendError else QuotaExceeded(size(SyncOut(s, data)));
      SaveData(s, size, data, f) ==
        if f.flagSet then Step(State(s.local + Fragment(data), s.sync, false), Rejected(BackendError))
        else Step(State(s.local + Fragment(data) + map[SyncEnabledKey := Flag(false)], s.sync, false),
                  Resolved(SyncDisabled(e)))
  {
  }

  /** A reply flags `syncDisabled` only when sync was on and its Sync half failed. */
  lemma SaveDataSyncDisabledOnlyOnFailure(s: State, size: Store -> nat, data: Payload, f: SaveFaults)
    ensures var r := SaveData(s, size, data, f).result;
      r.Resolved? && r.value.SyncDisabled? <==>
        s.syncEnabled && !f.localSet && !f.flagSet && !SyncWriteSucceeds(s, size, data, f)
  {
  }

  /**
   * The Sync workspaces saveData writes are the Sync map overridden entry by
   * entry by the given map: given names take the given value, names only in
   * Sync survive unchanged, and no other name appears.
   */
  lemma ToSyncWorkspaces(current: Payload, data: Payload, given: map<string, Workspace>)
    requires data.workspaces == Some(given)
    ensures var old_ := current.workspaces.GetOr(map[]);
      && ToSync(current, data).workspaces.Some?
      && var merged := ToSync(current, data).workspaces.value;
      && merged.Keys == old_.Keys + given.Keys
      && (forall n :: n in given ==> merged[n] == given[n])
      && (forall n :: n in old_ && n !in given ==> merged[n] == old_[n])
  {
  }

  /**
   * The Sync categories saveData writes are the Sync list followed by the
   * given list with duplicates removed at their later occurrences: a Sync list
   * without duplicates is kept as a prefix, followed by the given names it
   * lacked, in order; the result holds each name of either list exactly once.
   */
  lemma ToSyncCategories(current: Payload, data: Payload, given: seq<string>)
    requires data.categories == Some(given)
    ensures var old_ := current.categories.GetOr([]);
      && ToSync(current, data).categories.Some?
      && var merged := ToSync(current, data).categories.value;
      && merged == Dedup(old_) + Dedup(Without(given, old_))
      && (NoDuplicates(old_) ==> merged == old_ + Dedup(Without(given, old_)))
      && NoDuplicates(merged)
      && (forall c :: c in merged <==> c in old_ || c in given)
  {
    var old_ := current.categories.GetOr([]);
    DedupAppend(old_, given);
    if NoDuplicates(old_) {
      DedupOfUnique(old_);
    }
    DedupNoDuplicates(old_ + given);
    DedupMembers(old_ + given);
  }

  /** Only the collections present in the argument are written to Sync. */
  lemma ToSyncOnlyGivenKeys(current: Payload, data: Payload)
    ensures ToSync(current, data).workspaces.Some? <==> data.workspaces.Some?
    ensures ToSync(current, data).categories.Some? <==> data.categories.Some?
    ensures Fragment(ToSync(current, data)).Keys == Fragment(data).Keys
  {
  }

  /**
   * The worked example of merge-not-replace: Sync holds ["A", "B"], the caller
   * saves ["B", "C"]; Sync ends with ["A", "B", "C"] and Local with exactly
   * ["B", "C"].
   */
  lemma CategoriesMergeExample(s: State, size: Store -> nat, f: SaveFaults)
    requires s.syncEnabled && f == SaveFaults(false, false, false, false)
    requires s.sync == map[CategoriesKey := CategoryList(["A", "B"])]
    requires size(SyncOut(s, Payload(None, Some(["B", "C"])))) <= MaxSyncBytes
    ensures var t := SaveData(s, size, Payload(None, Some(["B", "C"])), f).state;
      && CategoriesIn(t.sync) == Some(["A", "B", "C"])
      && CategoriesIn(t.local) == Some(["B", "C"])
  {
    var data := Payload(None, Some(["B", "C"]));
    assert PayloadIn(Restrict(s.sync, CollectionKeys)).categories == Some(["A", "B"]);
    DedupExample();
    assert ToSync(PayloadIn(Restrict(s.sync, CollectionKeys)), data).categories == Some(["A", "B", "C"]);
  }

  lemma DedupExample()
    ensures Dedup(["A", "B"] + ["B", "C"]) == ["A", "B", "C"]
  {
    assert ["A", "B"] + ["B", "C"] == ["A", "B", "B", "C"];
    assert Dedup(["A"]) == ["A"] by {
      assert ["A"][..0] == [];
    }
    assert Dedup(["A", "B"]) == ["A", "B"] by {
      assert ["A", "B"][..1] == ["A"];
    }
    assert Dedup(["A", "B", "B"]) == ["A", "B"] by {
      assert ["A", "B", "B"][..2] == ["A", "B"];
    }
    assert ["A", "B", "B", "C"][..3] == ["A", "B", "B"];
  }

  // --------------------------------------------------------- pushLocalToSync

  /** Whether a push goes through: the Local read, the size check and the Sync write. */
  predicate PushSucceeds(s: State, size: Store -> nat, f: PushFaults) {
    !f.localGet && size(Restrict(s.local, CollectionKeys)) <= MaxSyncBytes && !f.syncSet
  }

  /**
   * A push that goes through copies Local's workspaces and categories to Sync
   * verbatim (a collection Local lacks is left as it is in Sync) and changes
   * nothing else.
   */
  lemma PushCopiesLocal(s: State, size: Store -> nat, f: PushFaults)
    ensures Push(s, size, f).result == Resolved(Ok) <==> PushSucceeds(s, size, f)
    ensures PushSucceeds(s, size, f) ==>
      var t := Push(s, size, f).state;
      && t.local == s.local && t.syncEnabled == s.syncEnabled
      && (forall k :: k in CollectionKeys && k in s.local ==> k in t.sync && t.sync[k] == s.local[k])
      && (forall k :: k !in CollectionKeys || k !in s.local ==>
            (k in t.sync <==> k in s.sync) && (k in s.sync ==> t.sync[k] == s.sync[k]))
  {
  }

  /**
   * A push that fails switches sync off in memory and in Local and reports
   * `{success: false, error}` without a syncDisabled field; Sync is untouched.
   */
  lemma PushFailureDisables(s: State, size: Store -> nat, f: PushFaults)
    requires !PushSucceeds(s, size, f)
    ensures var t := Push(s, size, f);
      && t.state.syncEnabled == false && t.state.sync == s.sync
      && (f.flagSet ==> t.state.local == s.local && t.result == Rejected(BackendError))
      && (!f.flagSet ==> t.state.local == s.local + map[SyncEnabledKey := Flag(false)]
                         && t.result.Resolved? && t.result.value.Failed?)
  {
  }

  // ----------------------------------------------------------- setSyncStatus

  /**
   * setSyncStatus caches and persists the flag; turning sync on then pushes,
   * and turning it off pushes nothing. The push's reply is not returned.
   */
  lemma SetSyncStatusPushes(s: State, size: Store -> nat, enabled: bool, push: PushFaults)
    ensures var on := s.(syncEnabled := enabled, local := s.local + map[SyncEnabledKey := Flag(enabled)]);
      var t := SetSyncStatus(s, size, enabled, false, push);
      && (enabled ==> t.state == Push(on, size, push).state)
      && (!enabled ==> t.state == on)
      && (t.result.Rejected? <==> enabled && !PushSucceeds(on, size, push) && push.flagSet)
  {
  }

  /**
   * Turning sync on with a push that fails resolves normally, yet leaves sync
   * off in memory and in Local.
   */
  lemma SetSyncStatusFailedPushTurnsSyncOff(s: State, size: Store -> nat, push: PushFaults)
    requires !push.flagSet
    requires !PushSucceeds(s.(syncEnabled := true, local := s.local + map[SyncEnabledKey := Flag(true)]), size, push)
    ensures var t := SetSyncStatus(s, size, true, false, push);
      && t.result == Resolved(())
      && !t.state.syncEnabled && !PersistedFlag(t.state.local)
  {
  }

  /**
   * The flag is cached before it is persisted: when persisting fails, the
   * call rejects with the new value cached and the old one stored.
   */
  lemma SetSyncStatusFlagWriteFails(s: State, size: Store -> nat, enabled: bool, push: PushFaults)
    ensures SetSyncStatus(s, size, enabled, true, push) ==
      Step(s.(syncEnabled := enabled), Rejected(BackendError))
    ensures enabled != PersistedFlag(s.local) ==>
      !FlagPersisted(SetSyncStatus(s, size, enabled, true, push).state)
  {
  }

  // --------------------------------------------------------- pullSyncToLocal

  /** Pull never changes Sync or the flag, and a failed or empty pull changes nothing. */
  lemma PullKeepsFlagAndSync(s: State, f: PullFaults)
    ensures Pull(s, f).state.syncEnabled == s.syncEnabled
    ensures Pull(s, f).state.sync == s.sync
    ensures Pull(s, f).result != Ok ==> Pull(s, f).state == s
    ensures f.syncGet ==> Pull(s, f).result == Failed(BackendError)
  {
  }

  /** With neither collection in Sync, pull leaves Local untouched and reports success. */
  lemma PullNothing(s: State, f: PullFaults)
    requires Valid(s) && !f.syncGet
    requires WorkspacesKey !in s.sync && CategoriesKey !in s.sync
    ensures Pull(s, f) == Step(s, NothingToPull)
  {
  }

  /**
   * Pull is a destructive overwrite: each collection Sync holds replaces
   * Local's wholesale; a collection Sync lacks is left in Local.
   */
  lemma PullOverwrites(s: State, f: PullFaults)
    requires Valid(s) && !f.syncGet && !f.localSet
    requires WorkspacesKey in s.sync || CategoriesKey in s.sync
    ensures var t := Pull(s, f);
      && t.result == Ok
      && (forall k :: k in CollectionKeys && k in s.sync ==> k in t.state.local && t.state.local[k] == s.sync[k])
      && (forall k :: k !in CollectionKeys || k !in s.sync ==>
            (k in t.state.local <==> k in s.local) && (k in s.local ==> t.state.local[k] == s.local[k]))
  {
  }

  /** Local's workspaces after a pull are exactly Sync's: a name only Local had is gone. */
  lemma PullIsDestructive(s: State, f: PullFaults, fromSync: map<string, Workspace>)
    requires Valid(s) && !f.syncGet && !f.localSet
    requires WorkspacesIn(s.sync) == Some(fromSync)
    ensures WorkspacesIn(Pull(s, f).state.local) == Some(fromSync)
  {
  }

  /**
   * Push followed by pull, with no failures and within the ceiling, gives
   * back every collection Local held; a collection only Sync held is copied
   * into Local.
   */
  lemma PushThenPull(s: State, size: Store -> nat)
    requires Valid(s)
    requires PushSucceeds(s, size, PushFaults(false, false, false))
    ensures var t := Pull(Push(s, size, PushFaults(false, false, false)).state, PullFaults(false, false)).state;
      && (forall k :: k in CollectionKeys && k in s.local ==> k in t.local && t.local[k] == s.local[k])
      && (forall k :: k in CollectionKeys && k !in s.local && k in s.sync ==> k in t.local && t.local[k] == s.sync[k])
  {
    var p := Push(s, size, PushFaults(false, false, false)).state;
    assert Valid(p);
  }

  /** So the round trip is not the identity on Local: categories only Sync held appear. */
  lemma PushThenPullCanChangeLocal(size: Store -> nat)
    requires size(map[]) <= MaxSyncBytes
    ensures var s := State(map[], map[CategoriesKey := CategoryList(["work"])], true);
      var t := Pull(Push(s, size, PushFaults(false, false, false)).state, PullFaults(false, false)).state;
      CategoriesIn(t.local) == Some(["work"]) && CategoriesIn(s.local) == None
  {
    var s := State(map[], map[CategoriesKey := CategoryList(["work"])], true);
    assert Restrict(s.local, CollectionKeys) == map[];
  }

  // ------------------------------------------------------------------- reads

  /** With sync on, a working Sync read and a truthy Sync value, that value is returned. */
  lemma ReadPrefersSync<T>(s: State, extract: Store -> Option<T>, default: T, f: ReadFaults)
    requires s.syncEnabled && !f.syncGet && extract(s.sync).Some?
    ensures ReadSyncFirst(s, extract, default, f) == Resolved(extract(s.sync).value)
  {
  }

  /** Otherwise the truthy Local value is returned, else the default; only a failed Local read rejects. */
  lemma ReadFallsBack<T>(s: State, extract: Store -> Option<T>, default: T, f: ReadFaults)
    requires !s.syncEnabled || f.syncGet || extract(s.sync).None?
    ensures ReadSyncFirst(s, extract, default, f) ==
      if f.localGet then Rejected(BackendError) else Resolved(extract(s.local).GetOr(default))
  {
  }

  /** With sync off, Sync is never consulted: neither its content nor its failures matter. */
  lemma ReadIgnoresSyncWhenOff<T>(s: State, otherSync: Store, extract: Store -> Option<T>, default: T,
                                  f: ReadFaults, syncGetFails: bool)
    requires !s.syncEnabled
    ensures ReadSyncFirst(s, extract, default, f) ==
            ReadSyncFirst(s.(sync := otherSync), extract, default, f.(syncGet := syncGetFails))
  {
  }

  /** An empty category list in Sync is truthy and is returned as it is. */
  lemma EmptySyncCategoriesReturned(s: State, f: ReadFaults)
    requires s.syncEnabled && !f.syncGet
    requires CategoriesKey in s.sync && s.sync[CategoriesKey] == CategoryList([])
    ensures ReadCategories(s, f) == Resolved([])
  {
  }

  /** An empty UI mode or theme in Sync is falsy and falls through to Local. */
  lemma EmptySyncPreferenceFallsThrough(s: State, f: ReadFaults)
    requires s.syncEnabled && !f.syncGet && !f.localGet
    requires UIModeKey in s.sync && s.sync[UIModeKey] == Text("")
    requires ThemeKey in s.sync && s.sync[ThemeKey] == Text("")
    ensures ReadUIMode(s, f) == Resolved(UIModeIn(s.local).GetOr("basic"))
    ensures ReadTheme(s, f) == Resolved(ThemeIn(s.local).GetOr("light"))
  {
  }

  /** The defaults when neither area has a value. */
  lemma ReadDefaults(s: State, f: ReadFaults)
    requires !f.localGet && s.local == map[] && (s.sync == map[] || !s.syncEnabled)
    ensures ReadWorkspaces(s, f) == Resolved(map[])
    ensures ReadCategories(s, f) == Resolved([])
    ensures ReadUIMode(s, f) == Resolved("basic")
    ensures ReadTheme(s, f) == Resolved("light")
  {
  }

  // ------------------------------------------- preferences and deleteData

  /**
   * setUIMode and setTheme always write Local, write Sync only when sync is
   * on, and swallow a Sync failure: the call resolves and the flag is kept.
   */
  lemma SetPreferenceSwallowsSyncFailure(s: State, key: string, value: string, f: WriteFaults)
    requires !f.local
    ensures var t := SetPreference(s, key, value, f);
      && t.result == Resolved(())
      && t.state.syncEnabled == s.syncEnabled
      && key in t.state.local && t.state.local[key] == Text(value)
      && (forall k :: k != key ==> (k in t.state.local <==> k in s.local) && (k in s.local ==> t.state.local[k] == s.local[k]))
      && t.state.sync == if s.syncEnabled && !f.sync then s.sync + map[key := Text(value)] else s.sync
  {
  }

  /** deleteData always removes from Local, from Sync only when on, and swallows a Sync failure. */
  lemma DeleteDataSwallowsSyncFailure(s: State, keys: set<string>, f: WriteFaults)
    ensures var t := DeleteData(s, keys, f);
      && (f.local ==> t == Step(s, Rejected(BackendError)))
      && (!f.local ==>
            && t.result == Resolved(())
            && t.state.syncEnabled == s.syncEnabled
            && t.state.local.Keys == s.local.Keys - keys
            && (forall k :: k in t.state.local ==> t.state.local[k] == s.local[k])
            && t.state.sync == if s.syncEnabled && !f.sync then s.sync - keys else s.sync)
  {
  }

  // ------------------------------------------------------- the sync flag

  /** initSyncStatus loads the persisted flag, or false if none; a failed read gives false. */
  lemma InitLoadsFlag(s: State, fails: bool)
    ensures InitSyncStatus(s, fails).syncEnabled == (!fails && PersistedFlag(s.local))
    ensures InitSyncStatus(s, fails).local == s.local && InitSyncStatus(s, fails).sync == s.sync
    ensures !fails ==> FlagPersisted(InitSyncStatus(s, fails))
  {
  }

  /** A failed initial read caches false even though Local stores true. */
  lemma InitFailureDiverges(s: State)
    requires PersistedFlag(s.local)
    ensures !FlagPersisted(InitSyncStatus(s, true))
  {
  }

  /*
   * Write-through: every operation that settles normally keeps the cached
   * flag equal to the persisted one, and setSyncStatus even re-establishes it.
   */

  lemma SetSyncStatusEstablishesFlag(s: State, size: Store -> nat, enabled: bool, push: PushFaults)
    requires SetSyncStatus(s, size, enabled, false, push).result.Resolved?
    ensures FlagPersisted(SetSyncStatus(s, size, enabled, false, push).state)
  {
  }

  lemma SaveDataKeepsFlag(s: State, size: Store -> nat, data: Payload, f: SaveFaults)
    requires FlagPersisted(s) && SaveData(s, size, data, f).result.Resolved?
    ensures FlagPersisted(SaveData(s, size, data, f).state)
  {
    assert SyncEnabledKey !in Fragment(data);
  }

  lemma PushKeepsFlag(s: State, size: Store -> nat, f: PushFaults)
    requires FlagPersisted(s) && Push(s, size, f).result.Resolved?
    ensures FlagPersisted(Push(s, size, f).state)
  {
  }

  lemma PullKeepsFlag(s: State, f: PullFaults)
    requires FlagPersisted(s)
    ensures FlagPersisted(Pull(s, f).state)
  {
    assert SyncEnabledKey !in Restrict(s.sync, CollectionKeys);
  }

  /** The preference writers are given their own keys, never the flag's. */
  lemma SetPreferenceKeepsFlag(s: State, key: string, value: string, f: WriteFaults)
    requires FlagPersisted(s) && key != SyncEnabledKey
    ensures FlagPersisted(SetPreference(s, key, value, f).state)
  {
  }

  /** deleteData keeps the flag as long as it is not asked to remove the flag itself. */
  lemma DeleteDataKeepsFlag(s: State, keys: set<string>, f: WriteFaults)
    requires FlagPersisted(s) && SyncEnabledKey !in keys
    ensures FlagPersisted(DeleteData(s, keys, f).state)
  {
  }
}

=== FILE: values.dfy ===
/**
 * The values the extension keeps in its two key/value storage areas:
 * saved tabs, workspaces, the category list and the preference flags, and
 * the shapes of the results its asynchronous operations settle with.
 */
module Values {

  datatype Option<+T> = None | Some(value: T) {
    function GetOr(default: T): T {
      match this
      case Some(v) => v
      case None => default
    }
  }

  /** One saved browser tab; the order of tabs in a workspace is the restore order. */
  datatype Tab = Tab(url: string, title: string, favIconUrl: string)

  /**
   * A saved workspace. `category` is "" when the workspace has no category
   * (a missing category and an empty one are treated alike everywhere).
   * `updatedAt` is present only after an update.
   */
  datatype Workspace = Workspace(
    tabs: seq<Tab>,
    createdAt: string,
    tabCount: int,
    category: string,
    updatedAt: Option<string>)

  /** The invariant every save path establishes: the stored tab count is the number of tabs. */
  predicate CountMatches(w: Workspace) {
    w.tabCount == |w.tabs|
  }

  /** The record built when a workspace is saved for the first time or overwritten. */
  function NewRecord(tabs: seq<Tab>, now: string, category: string): (w: Workspace)
    ensures CountMatches(w) && w.tabs == tabs && w.createdAt == now
    ensures w.category == category && w.updatedAt == None
  {
    Workspace(tabs, now, |tabs|, category, None)
  }

  /** A value stored under one key of a storage area. */
  datatype Value =
    | WorkspaceMap(workspaces: map<string, Workspace>)
    | CategoryList(categories: seq<string>)
    | Flag(enabled: bool)
    | Text(text: string)

  /** JavaScript truthiness of a stored value: objects and arrays are truthy, even when empty. */
  predicate Truthy(v: Value) {
    match v
    case WorkspaceMap(_) => true
    case CategoryList(_) => true
    case Flag(b) => b
    case Text(t) => t != ""
  }

  /** A storage area: a map from key to value. */
  type Store = map<string, Value>

  const WorkspacesKey: string := "workspaces"
  const CategoriesKey: string := "categories"
  const SyncEnabledKey: string := "syncEnabled"
  const UIModeKey: string := "uiMode"
  const ThemeKey: string := "theme"

  /** The keys the extension itself writes carry values of the expected kind. */
  predicate WellTyped(store: Store) {
    && (WorkspacesKey in store ==> store[WorkspacesKey].WorkspaceMap?)
    && (CategoriesKey in store ==> store[CategoriesKey].CategoryList?)
    && (SyncEnabledKey in store ==> store[SyncEnabledKey].Flag?)
    && (UIModeKey in store ==> store[UIModeKey].Text?)
    && (ThemeKey in store ==> store[ThemeKey].Text?)
  }

  /** `get(keys)` of a storage area: missing keys are simply absent from the result. */
  function Restrict(store: Store, keys: set<string>): (r: Store)
    ensures r.Keys == store.Keys * keys
    ensures forall k :: k in r ==> r[k] == store[k]
  {
    map k | k in store && k in keys :: store[k]
  }

  /** The workspace map stored under "workspaces", if any. */
  function WorkspacesIn(store: Store): Option<map<string, Workspace>> {
    if WorkspacesKey in store && store[WorkspacesKey].WorkspaceMap?
    then Some(store[WorkspacesKey].workspaces) else None
  }

  /** The category list stored under "categories", if any (an empty list is present and truthy). */
  function CategoriesIn(store: Store): Option<seq<string>> {
    if CategoriesKey in store && store[CategoriesKey].CategoryList?
    then Some(store[CategoriesKey].categories) else None
  }

  /** The text stored under `key` when it is truthy, i.e. present and non-empty. */
  function TextIn(store: Store, key: string): Option<string> {
    if key in store && store[key].Text? && store[key].text != ""
    then Some(store[key].text) else None
  }

  /** `result.syncEnabled || false` for the persisted sync flag. */
  predicate PersistedFlag(store: Store) {
    SyncEnabledKey in store && store[SyncEnabledKey] == Flag(true)
  }

  /** The object `{workspaces?, categories?}` that saveData, push and pull move between areas. */
  datatype Payload = Payload(workspaces: Option<map<string, Workspace>>, categories: Option<seq<string>>)

  /** The payload as the entries it contributes to a storage area. */
  function Fragment(p: Payload): (r: Store)
    ensures WorkspacesKey in r <==> p.workspaces.Some?
    ensures CategoriesKey in r <==> p.categories.Some?
    ensures r.Keys <= {WorkspacesKey, CategoriesKey}
    ensures WellTyped(r)
  {
    (if p.workspaces.Some? then map[WorkspacesKey := WorkspaceMap(p.workspaces.value)] else map[])
    + (if p.categories.Some? then map[CategoriesKey := CategoryList(p.categories.value)] else map[])
  }

  /** The payload a `get(['workspaces', 'categories'])` of an area yields. */
  function PayloadIn(store: Store): Payload {
    Payload(WorkspacesIn(store), CategoriesIn(store))
  }

  /** Writing a payload and reading it back yields the same payload. */
  lemma PayloadRoundTrip(p: Payload)
    ensures PayloadIn(Fragment(p)) == p
  {
  }

  /** After writing a payload into an area, the keys it carries read back as written. */
  lemma PayloadWritten(store: Store, p: Payload)
    ensures p.workspaces.Some? ==> WorkspacesIn(store + Fragment(p)) == p.workspaces
    ensures p.categories.Some? ==> CategoriesIn(store + Fragment(p)) == p.categories
    ensures p.workspaces.None? ==> WorkspacesIn(store + Fragment(p)) == WorkspacesIn(store)
    ensures p.categories.None? ==> CategoriesIn(store + Fragment(p)) == CategoriesIn(store)
  {
  }

  /** Errors an operation reports: a backend failure or the client-side sync size check. */
  datatype Error = BackendError | QuotaExceeded(bytes: nat)

  /** How a JavaScript promise settles. */
  datatype Settled<+T> = Resolved(value: T) | Rejected(error: Error)

  /**
   * The result objects of the storage operations:
   *   Ok             — { success: true }
   *   NothingToPull  — { success: true, message: 'No data in sync storage' }
   *   Failed(e)      — { success: false, error }
   *   SyncDisabled(e)— { success: false, error, syncDisabled: true }
   */
  datatype Reply = Ok | NothingToPull | Failed(error: Error) | SyncDisabled(error: Error) {
    predicate Success() {
      Ok? || NothingToPull?
    }
  }
}

=== FILE: workspace_list.dfy ===
/**
 * The list steps of the popup's loadWorkspaces: the category filter, the
 * search filter and the grouping by category. The entries are the
 * `[name, workspace]` pairs of the workspace map in display order (sorting
 * by creation date happens outside this model); both filters keep the
 * entries they accept in that order.
 */
module WorkspaceList {
  import opened Values
  import opened Sequences

  /** One `[name, workspace]` pair of `Object.entries(workspaces)`. */
  type Entry = (string, Workspace)

  /** The entries of one category, in list order; "" is the no-category group. */
  function InCategory(entries: seq<Entry>, category: string): (r: seq<Entry>)
    ensures |r| <= |entries|
    ensures forall e :: e in r <==> e in entries && e.1.category == category
  {
    Keep(entries, (e: Entry) => e.1.category == category)
  }

  /**
   * The category filter: 'all' keeps every entry, '' keeps the entries without
   * a category, any other value keeps the entries of exactly that category.
   */
  function FilterByCategory(entries: seq<Entry>, selected: string): (r: seq<Entry>)
    ensures forall e :: e in r <==> e in entries && (selected == "all" || e.1.category == selected)
  {
    if selected == "all" then entries else InCategory(entries, selected)
  }

  /** The search query as the popup uses it: trimmed, then lower-cased. */
  function SearchQuery(input: string): string {
    Lower(Trim(input))
  }

  /**
   * A workspace matches a (trimmed, lower-cased) query when the query occurs
   * in its lower-cased name, its category, or the title or URL of one of its tabs.
   */
  predicate Matches(name: string, w: Workspace, query: string) {
    || Contains(Lower(name), query)
    || (w.category != "" && Contains(Lower(w.category), query))
    || (exists i :: 0 <= i < |w.tabs| && Contains(Lower(w.tabs[i].title), query))
    || (exists i :: 0 <= i < |w.tabs| && Contains(Lower(w.tabs[i].url), query))
  }

  /** The search filter; an empty query keeps every entry. */
  function Search(entries: seq<Entry>, input: string): (r: seq<Entry>)
    ensures forall e :: e in r <==>
      e in entries && (SearchQuery(input) == "" || Matches(e.0, e.1, SearchQuery(input)))
  {
    var q := SearchQuery(input);
    if q == "" then entries else Keep(entries, (e: Entry) => Matches(e.0, e.1, q))
  }

  /** A query made only of whitespace searches for nothing and keeps every entry. */
  lemma BlankSearchKeepsAll(entries: seq<Entry>, input: string)
    requires forall i :: 0 <= i < |input| ==> IsJsWhitespace(input[i])
    ensures Search(entries, input) == entries
  {
    TrimEmpty(input);
  }

  /** The search is case-insensitive in the query as well as in the text searched. */
  lemma SearchIgnoresQueryCase(entries: seq<Entry>, input: string)
    ensures SearchQuery(Lower(input)) == SearchQuery(input)
    ensures Search(entries, Lower(input)) == Search(entries, input)
  {
    LowerTrim(input);
    LowerIdempotent(Trim(input));
  }

  /** Grouping is used only when nothing is searched and the filter is 'all'. */
  predicate GroupsShown(selected: string, input: string) {
    SearchQuery(input) == "" && selected == "all"
  }

  /** When the groups are shown, both filters have kept every entry, so every workspace is grouped. */
  lemma GroupsShownListsAll(entries: seq<Entry>, selected: string, input: string)
    requires GroupsShown(selected, input)
    ensures Search(FilterByCategory(entries, selected), input) == entries
  {
  }

  /** The category of each entry, in order. */
  function Categories(entries: seq<Entry>): (r: seq<string>)
    ensures |r| == |entries| && forall i :: 0 <= i < |entries| ==> r[i] == entries[i].1.category
  {
    seq(|entries|, i requires 0 <= i < |entries| => entries[i].1.category)
  }

  /**
   * The grouping object: its keys in insertion order ("" first, then each
   * category as it first appears) and, for each key, the entries of that
   * category in list order.
   */
  ghost predicate GroupsOf(listed: seq<Entry>, keys: seq<string>, groups: map<string, seq<Entry>>) {
    && keys == Dedup([""] + Categories(listed))
    && (forall k :: k in groups <==> k in keys)
    && (forall k :: k in groups ==> groups[k] == InCategory(listed, k))
  }

  /**
   * The grouping loop: start with an empty "" group, then append each entry
   * to the group of its category, creating the group on first use.
   */
  method GroupByCategory(listed: seq<Entry>) returns (keys: seq<string>, groups: map<string, seq<Entry>>)
    ensures GroupsOf(listed, keys, groups)
  {
    keys, groups := [""], map["" := []];
    GroupsOfNone(listed[..0]);
    var i := 0;
    while i < |listed|
      invariant 0 <= i <= |listed|
      invariant GroupsOf(listed[..i], keys, groups)
    {
      var category := listed[i].1.category;
      var group := if category in groups then groups[category] else [];
      GroupStep(listed, i, keys, groups);
      if category !in groups {
        keys := keys + [category];
      }
      groups := groups[category := group + [listed[i]]];
      i := i + 1;
    }
    assert listed[..i] == listed;
  }

  /** Before any entry, the grouping object holds only the empty no-category group. */
  lemma GroupsOfNone(listed: seq<Entry>)
    requires listed == []
    ensures GroupsOf(listed, [""], map["" := []])
  {
    assert [""] + Categories(listed) == [""];
    assert [""][..0] == [];
  }

  /** One iteration of the grouping loop keeps the grouping object exact. */
  lemma GroupStep(listed: seq<Entry>, i: nat, keys: seq<string>, groups: map<string, seq<Entry>>)
    requires i < |listed| && GroupsOf(listed[..i], keys, groups)
    ensures var c := listed[i].1.category;
      GroupsOf(listed[..i + 1], if c in groups then keys else keys + [c],
               groups[c := (if c in groups then groups[c] else []) + [listed[i]]])
  {
    var e := listed[i];
    assert listed[..i + 1] == listed[..i] + [e];
    GroupKeysStep(listed[..i], keys, groups, e);
    var groups' := groups[e.1.category := (if e.1.category in groups then groups[e.1.category] else []) + [e]];
    forall k | k in groups'
      ensures groups'[k] == InCategory(listed[..i] + [e], k)
    {
      InCategorySnoc(listed[..i], e, k);
      if k == e.1.category && k !in groups {
        NewCategoryEmpty(listed[..i], keys, groups, k);
      }
    }
  }

  /** The key list grows by the entry's category exactly when that category is new. */
  lemma GroupKeysStep(listed: seq<Entry>, keys: seq<string>, groups: map<string, seq<Entry>>, e: Entry)
    requires GroupsOf(listed, keys, groups)
    ensures var c := e.1.category;
      (if c in groups then keys else keys + [c]) == Dedup([""] + Categories(listed + [e]))
  {
    var c := e.1.category;
    assert Categories(listed + [e]) == Categories(listed) + [c];
    assert [""] + Categories(listed + [e]) == ([""] + Categories(listed)) + [c];
    DedupSnoc([""] + Categories(listed), c);
  }

  /** A category that has no group yet has no listed entries. */
  lemma NewCategoryEmpty(listed: seq<Entry>, keys: seq<string>, groups: map<string, seq<Entry>>, c: string)
    requires GroupsOf(listed, keys, groups) && c !in groups
    ensures InCategory(listed, c) == []
  {
    if InCategory(listed, c) != [] {
      var x := InCategory(listed, c)[0];
      var i :| 0 <= i < |listed| && listed[i] == x;
      assert Categories(listed)[i] == c;
      DedupMembersOne([""] + Categories(listed), c);
    }
  }

  lemma InCategorySnoc(listed: seq<Entry>, e: Entry, k: string)
    ensures InCategory(listed + [e], k) == InCategory(listed, k) + (if e.1.category == k then [e] else [])
  {
    assert (listed + [e])[..|listed|] == listed;
  }

  /** The grouping starts with the no-category group and has each key once. */
  lemma GroupKeys(listed: seq<Entry>, keys: seq<string>, groups: map<string, seq<Entry>>)
    requires GroupsOf(listed, keys, groups)
    ensures |keys| > 0 && keys[0] == "" && NoDuplicates(keys)
    ensures forall k :: k in keys <==> k == "" || k in Categories(listed)
  {
    DedupNoDuplicates([""] + Categories(listed));
    DedupMembers([""] + Categories(listed));
    assert Dedup([""] + Categories(listed))[0] == "" by {
      DedupAppend([""], Categories(listed));
      assert [""][..0] == [];
    }
  }

  /** Every listed entry lands in the group of its category and in no other. */
  lemma EachEntryInOneGroup(listed: seq<Entry>, keys: seq<string>, groups: map<string, seq<Entry>>, e: Entry)
    requires GroupsOf(listed, keys, groups) && e in listed
    ensures e.1.category in groups && e in groups[e.1.category]
    ensures forall k :: k in groups && e in groups[k] ==> k == e.1.category
  {
    GroupKeys(listed, keys, groups);
    var i :| 0 <= i < |listed| && listed[i] == e;
    assert Categories(listed)[i] == e.1.category;
  }

  /** Only the no-category group can be empty; it is the one the rendering skips when so. */
  lemma OnlyNoCategoryGroupEmpty(listed: seq<Entry>, keys: seq<string>, groups: map<string, seq<Entry>>)
    requires GroupsOf(listed, keys, groups)
    ensures forall k :: k in groups && k != "" ==> groups[k] != []
  {
    GroupKeys(listed, keys, groups);
    forall k | k in groups && k != ""
      ensures groups[k] != []
    {
      var i :| 0 <= i < |Categories(listed)| && Categories(listed)[i] == k;
      assert listed[i] in groups[k];
    }
  }

  /** A group is rendered when it holds at least one workspace. */
  function Shows(groups: map<string, seq<Entry>>): string -> bool {
    k => k in groups && groups[k] != []
  }

  /** Each key with its group. */
  function Paired(keys: seq<string>, groups: map<string, seq<Entry>>): (r: seq<(string, seq<Entry>)>)
    requires forall i :: 0 <= i < |keys| ==> keys[i] in groups
    ensures |r| == |keys| && forall i :: 0 <= i < |keys| ==> r[i] == (keys[i], groups[keys[i]])
  {
    seq(|keys|, i requires 0 <= i < |keys| => (keys[i], groups[keys[i]]))
  }

  /** The groups rendered, in the given key order, skipping empty ones. */
  function Rendered(order: seq<string>, groups: map<string, seq<Entry>>): (r: seq<(string, seq<Entry>)>)
    requires forall i :: 0 <= i < |order| ==> order[i] in groups
    ensures forall g :: g in r <==> g.0 in order && g.0 in groups && g.1 == groups[g.0] && g.1 != []
  {
    var shown := Keep(order, Shows(groups));
    assert forall i :: 0 <= i < |shown| ==> shown[i] in shown;
    Paired(shown, groups)
  }

  /** One key renders its group exactly when the group is non-empty. */
  lemma RenderedSingleton(k: string, groups: map<string, seq<Entry>>)
    requires k in groups
    ensures Rendered([k], groups) == if groups[k] == [] then [] else [(k, groups[k])]
  {
    KeepSingleton(k, Shows(groups));
  }

  /**
   * Rendering follows the key order: the rendering of a concatenation is the
   * rendering of its first part followed by that of its second part.
   */
  lemma RenderedAppend(a: seq<string>, b: seq<string>, groups: map<string, seq<Entry>>)
    requires forall i :: 0 <= i < |a| ==> a[i] in groups
    requires forall i :: 0 <= i < |b| ==> b[i] in groups
    ensures forall i :: 0 <= i < |a + b| ==> (a + b)[i] in groups
    ensures Rendered(a + b, groups) == Rendered(a, groups) + Rendered(b, groups)
  {
    var p := Shows(groups);
    KeepAppend(a, b, p);
    var x, y := Keep(a, p), Keep(b, p);
    assert forall i :: 0 <= i < |x| ==> x[i] in x;
    assert forall i :: 0 <= i < |y| ==> y[i] in y;
    PairedAppend(x, y, groups);
  }

  lemma PairedAppend(x: seq<string>, y: seq<string>, groups: map<string, seq<Entry>>)
    requires forall i :: 0 <= i < |x| ==> x[i] in groups
    requires forall i :: 0 <= i < |y| ==> y[i] in groups
    ensures forall i :: 0 <= i < |x + y| ==> (x + y)[i] in groups
    ensures Paired(x + y, groups) == Paired(x, groups) + Paired(y, groups)
  {
    assert forall i :: 0 <= i < |x + y| ==> (x + y)[i] == if i < |x| then x[i] else y[i - |x|];
  }

  /** When every group in the order is non-empty, each key is rendered once, in the order given. */
  lemma RenderedAllShown(order: seq<string>, groups: map<string, seq<Entry>>)
    requires forall i :: 0 <= i < |order| ==> order[i] in groups && groups[order[i]] != []
    ensures Rendered(order, groups) == seq(|order|, i requires 0 <= i < |order| => (order[i], groups[order[i]]))
  {
    KeepAll(order, Shows(groups));
  }
}
